=== FILE: README.md ===
# Exam proctoring core, modelled in Dafny

This project models the decision logic of a remote-exam platform. Teachers create tests and assign students to them. Students answer under face monitoring. The server admits one submission per student and flags answers that look copied.

Everything is written as immutable datatypes and pure functions. Each HTTP handler takes the stored state and the request. A handler that stores something returns a `Handled(state, response)` pair. `createTest` returns the test it saves, because the id the database gives it is not modelled. Each React component is a state record that changes one event at a time.

| module | file | models |
|---|---|---|
| `TestModel` | `test_model.dfy` | the `Test` document, its submissions and their schema defaults |
| `Plagiarism` | `plagiarism.dfy` | `checkPlagiarism`: the maximum similarity over a fixed corpus, compared with 0.6 |
| `TestController` | `test_controller.dfy` | `createTest`, `submitTest` (admission and append), `assignTest` |
| `Server` | `server.dfy` | `POST /students`, `POST /questions`, `GET /questions`, `POST /questions/:id/answer` |
| `FaceVerification` | `face_verification.dfy` | the 15-second face check that runs before the exam |
| `TestView` | `test_view.dfy` | the student's exam view: answers, paste flag, detection status, submit |
| `TestForm` | `test_form.dfy` | the teacher's new-test form |
| `ClientServer` | `client_server.dfy` | what the two forms send, and what the server does with it |
| `Proctoring` | `proctoring.dfy` | the alert-class mapping and the capture-loop guard, shared by both camera views |
| `Users`, `Http`, `JsStrings`, `Seqs`, `Wrappers` | | users and callers, replies, `trim` and `toLowerCase`, `.some` and `includes`/`push` |

Inputs the code cannot compute are parameters:
- the string-similarity metric is `sim: (string, string) -> real`;
- the current time is `now`;
- timer ticks, socket alerts, camera callbacks and server replies are events.

Points where the code does less than its own texts suggest, and what the model does there:
- The guideline text at `FaceVerification.jsx:145-146` promises a silent auto-submission after three face warnings, and warnings every 5 seconds. No code implements either, so neither is modelled.
- A submission has exactly `studentId`, `answers`, `submittedAt`, `wasPasted` and `plagiarismFlag` (`Test.js:8-14`); nothing else is stored about it.
- The pre-exam check passes when an `alert` event of type `success` has reached the view (`FaceVerification.jsx:81-83`). The view counts no faces itself, and what the server counts as success is not part of this model.
- Camera denial only shows "Camera access denied" (`FaceVerification.jsx:58-61`). The countdown keeps running and decides as usual.
- `submitTest` reads the test, checks it, pushes and saves (`testController.js:54-63`), with no conditional write. The model takes it as one atomic step.

## Model

| member | source | states |
|---|---|---|
| `TestModel.NewSubmission` | backend/models/Test.js:8-14 | a submission holds the given student and answers; `submittedAt` defaults to the current time, and `wasPasted` and `plagiarismFlag` default to false |
| `TestModel.NewTest` | backend/models/Test.js:3-15 | a test saves exactly when it has a non-empty title and a teacher id, and it starts with no submissions |
| `Plagiarism.MaxFrom` | backend/controllers/testController.js:12-16 | the running maximum is at least its start value and at least every score; it is either the start value or one of the scores |
| `Plagiarism.MaxAboveIff` | backend/controllers/testController.js:12-17 | a running maximum started at or below a bound ends above it exactly when some score is above it |
| `Plagiarism.FlaggedAgainst` | backend/controllers/testController.js:12-17 | comparing the maximum with 0.6 flags an answer exactly when some source text, lower-cased, scores above 0.6 |
| `Plagiarism.CheckPlagiarism` | backend/controllers/testController.js:6-18 | an answer is flagged exactly when some corpus text, lower-cased, scores above 0.6 against the lower-cased answer |
| `Plagiarism.NoSimilarityNoFlag` | backend/controllers/testController.js:12-17 | when no score is positive, the maximum stays 0 and nothing is flagged |
| `Plagiarism.CaseInsensitive` | backend/controllers/testController.js:14 | lower-casing the answer first never changes the verdict |
| `TestController.CreateTest` | backend/controllers/testController.js:20-28 | the request is accepted exactly when the title is non-empty and `questions` is a non-empty array; otherwise it gets 400 with the fixed message; an accepted test is owned by the caller, has no assigned students and no submissions, and passes schema validation |
| `TestController.AnyPlagiarised` | backend/controllers/testController.js:61 | a submission is flagged exactly when at least one of its answers is flagged; an empty answer list is never flagged |
| `TestController.SubmitTest` | backend/controllers/testController.js:51-64 | a missing test and an unassigned student both get 403 "Not authorized to submit"; otherwise a second attempt gets 403 "already submitted"; a body without answers gets 500; a refusal changes nothing; an admission appends exactly one submission at the end, leaving earlier ones and other fields and tests untouched |
| `TestController.AdmittedSubmission` | backend/controllers/testController.js:61-62 | an admitted attempt appends the submission built from the caller, the answers, the time, the paste flag (default false) and the plagiarism verdict |
| `TestController.AppendKeepsSingleAttempt` | backend/controllers/testController.js:58-62 | appending a submission for a student who has none keeps every student at most once in `submissions` |
| `TestController.SubmitPreservesSingleAttempt` | backend/controllers/testController.js:54-63 | one submission request, admitted or not, keeps the single-attempt invariant for every test |
| `TestController.SecondSubmissionRefused` | backend/controllers/testController.js:58-59 | once a student's submission is admitted, their next attempt on that test is refused as already submitted |
| `TestController.SubmitAll` | backend/controllers/testController.js:51-64 | a series of attempts gets one reply per attempt |
| `TestController.SingleAttemptAlways` | backend/controllers/testController.js:54-63 | any series of attempts, by any students on any tests, keeps the single-attempt invariant |
| `TestController.AtMostOneAdmitted` | backend/controllers/testController.js:55-62 | among repeated attempts by one student on one test, every attempt after an admitted one is refused as already submitted, so at most one is admitted |
| `TestController.AlreadySubmittedStays` | backend/controllers/testController.js:58-59 | after a student has submitted, all of their further attempts on that test are refused and change nothing |
| `TestController.AssignTest` | backend/controllers/testController.js:70-91 | a non-teacher gets 403, then a missing or foreign test gets 404, then an unknown student e-mail gets 404, all without change; on success the student is assigned, nobody else is added, a student already assigned leaves the test as it was, and a duplicate-free list stays duplicate-free |
| `TestController.AssignIdempotent` | backend/controllers/testController.js:85-91 | assigning the same student twice has the same effect and reply as assigning once |
| `Seqs.InsertOnce` | backend/controllers/testController.js:85-86 | the insert adds the element at the end only when it is absent, and keeps a duplicate-free list duplicate-free |
| `Users.FindStudent` | backend/index.js:107 | the lookup finds nothing exactly when no user with that e-mail has role student; otherwise it finds such a user |
| `Server.RosterOf` | backend/index.js:110 | finds the first roster of the teacher, or none when the teacher has none |
| `Server.RosterListing` | backend/index.js:87 | finds the first roster that lists the student, in insertion order (the order `findOne` is assumed to scan), or none when no roster lists them |
| `Server.AppendRoster` | backend/index.js:110-117 | creating a roster for a teacher who had none makes it that teacher's roster, holding only the new student; other teachers' rosters and well-formedness are kept |
| `Server.UpdateRoster` | backend/index.js:114-117 | adding to an existing roster inserts the student only if absent and leaves other teachers' rosters alone |
| `Server.AddStudent` | backend/index.js:104-121 | a non-teacher gets 403 and an unknown student gets 404, both leaving all rosters unchanged; on success the caller has a roster that holds the student, the reply is that roster, no one else is added, a member already on it changes nothing, and other teachers' rosters stay the same |
| `Server.AddStudentIdempotent` | backend/index.js:114-117 | adding the same student twice has the same effect and reply as adding once |
| `Server.PostQuestion` | backend/index.js:74-80 | a non-teacher gets 403; a missing or empty text fails validation with no reply; otherwise one question is appended, owned by the caller and with no answers |
| `Server.OwnedFrom` | backend/index.js:84 | lists, in increasing order, exactly the ids from a given position on whose question belongs to the teacher |
| `Server.OwnedBy` | backend/index.js:84 | lists, in increasing order, exactly the ids of the teacher's questions |
| `Server.GetQuestions` | backend/index.js:82-91 | a teacher gets exactly their own questions; a student listed on no roster gets nothing; any other student gets exactly the questions of the teacher whose roster is the first to list them; every id names an existing question. A student on two teachers' rosters therefore sees only one teacher's questions, although `POST /questions/:id/answer` lets them answer both |
| `Server.PostedQuestionListed` | backend/index.js:74-91 | after a teacher posts a question, its id is added at the end of the listing of the teacher and of every student whose listed roster is theirs; every other caller's listing is unchanged |
| `Server.StudentSeesOnlyRosteredQuestions` | backend/index.js:87-90 | every question a student gets belongs to a teacher whose roster lists that student |
| `Server.AppendAnswer` | backend/index.js:99-100 | exactly one answer by the caller is appended to the chosen question; every other question, user and roster is unchanged |
| `Server.AnswerQuestionAsWritten` | backend/index.js:93-102 | an answer to an unknown question id leaves the request unanswered; a refusal changes nothing |
| `Server.MissingQuestionUnanswered` | backend/index.js:96-97 | a student answering question 0 when there are no questions gets no reply |
| `Server.AnswerQuestion` | backend/index.js:93-102 | a non-student gets 403, an unknown question 404, a student not on the owner's roster 403, all without change; otherwise exactly one answer by the caller is appended at the end of that question's answers, and nothing else changes; every request is answered |
| `Server.AnswerQuestionAgreesOnKnownIds` | backend/index.js:93-102 | the corrected handler and the handler as written agree on every request except an answer to an unknown question |
| `Proctoring.AlertClass` | frontend/src/components/FaceVerification.jsx:77-80 | `success` selects `alert-success`, `warning` selects `alert-warning`, and every other type selects `alert-danger` |
| `Proctoring.CaptureAndSend` | frontend/src/components/FaceVerification.jsx:86-111 | a frame is sent and the next capture scheduled exactly when the camera is streaming and the elements are mounted; otherwise the loop ends |
| `Proctoring.SendTimes` | frontend/src/components/FaceVerification.jsx:86-111 | over successive runs of the capture loop, frames go out one interval apart while the camera streams; the loop ends at the first run that finds the camera stopped, and sends nothing if the elements are not mounted |
| `Proctoring.StoppedCameraSendsNoMore` | frontend/src/components/TestView.jsx:92-136 | within one capture chain, once `stopCamera` has cleared the streaming flag and it stays cleared, no further frame is sent, with 2-second spacing before the exam and 3-second spacing during it |
| `FaceVerification.Step` | frontend/src/components/FaceVerification.jsx:20-84 | nothing but Start Exam acts before the exam starts; a decided outcome is final; `timeLeft` only drops by one per tick, or to 0 at expiry; `faceDetected` only goes from false to true, and only on a `success` alert; the outcome is decided only by a tick with at most 1 second left, and is success exactly when a face was detected, else the failure notice and `/student`; camera denial sets the danger status and leaves the countdown alone; an alert sets the status and its class |
| `FaceVerification.StepKeepsInv` | frontend/src/components/FaceVerification.jsx:12-38 | every event keeps the invariants: `timeLeft` is at most 15, is at least 1 while undecided and is 0 once decided, and a view that has not started is still in its initial state |
| `FaceVerification.RunKeepsInv` | frontend/src/components/FaceVerification.jsx:12-38 | any series of events keeps the same invariants |
| `FaceVerification.RunAppend` | frontend/src/components/FaceVerification.jsx:20-48 | running two series of events one after the other is the same as running them joined |
| `FaceVerification.NothingBeforeStart` | frontend/src/components/FaceVerification.jsx:20-26 | events before Start Exam leave the view in its initial state: no countdown runs and no alert is handled |
| `FaceVerification.DecidedIsFinal` | frontend/src/components/FaceVerification.jsx:28-36 | once decided, the outcome and the rest of the view never change |
| `FaceVerification.Countdown` | frontend/src/components/FaceVerification.jsx:26-40 | from a running countdown with `t` seconds left, the outcome stays undecided exactly while fewer than `t` ticks have come, and the display is `t` minus the ticks; once decided it shows 0, and the outcome is success exactly when a face was already detected or a success alert came before the deciding tick; otherwise the failure notice and `/student` |
| `FaceVerification.VerificationOutcome` | frontend/src/components/FaceVerification.jsx:12-40 | from opening the view, events before Start Exam are ignored; after it, the outcome is decided on exactly the 15th tick; it is success exactly when a success alert came before that tick, and otherwise the failure notice and `/student` |
| `TestView.FindListed` | frontend/src/components/TestView.jsx:67 | finds nothing exactly when no listed test has the id; otherwise it finds one with that id |
| `TestView.InitialAnswers` | frontend/src/components/TestView.jsx:70 | one answer per question, each the empty string |
| `TestView.LoadTest` | frontend/src/components/TestView.jsx:60-75 | a reply that is not ok sets the error to "Failed to fetch test", a rejected `fetch` or a body that is not a JSON list sets it to the exception's own message, and an absent test sets it to "Test not found", in each case leaving the test unset and nothing else changed; otherwise the found test is stored and the answers are reset to one empty string per question |
| `TestView.PageAsWritten` | frontend/src/components/TestView.jsx:173-178 | the page shows only the loading line exactly when no test is set; otherwise it shows the form with the current error line |
| `TestView.PageShown` | frontend/src/components/TestView.jsx:173-178 | corrected rendering: a view with no test shows its error if it has one, and the loading line otherwise; a loaded view renders as before |
| `TestView.FailedLoadHidden` | frontend/src/components/TestView.jsx:65-74 | after a failed load the error is set, yet the page stays on the loading line through any later events |
| `TestView.FailedLoadShown` | frontend/src/components/TestView.jsx:65-74 | with the corrected rendering, a failed load shows the message it set ("Failed to fetch test", "Test not found" or the exception's own message) and keeps showing it |
| `TestView.LoadedPageAgrees` | frontend/src/components/TestView.jsx:173-178 | after a successful load both renderings show the exam form with no error, whatever events follow |
| `TestView.UpdateAnswer` | frontend/src/components/TestView.jsx:138-142 | sets the given position, keeps the length and leaves every other answer unchanged |
| `TestView.RaisesBrowserAlert` | frontend/src/components/TestView.jsx:124-126 | for a reported face count, a browser alert is raised exactly when the count is not 1; a missing count raises none |
| `TestView.OnDetection` | frontend/src/components/TestView.jsx:117-132 | a reply shows its message in its `alertType`'s class and raises a browser alert with its message exactly for a count of 0 or more than 1; a failed round trip shows "Error detecting faces" as danger and raises no alert; answers, paste flag and error stay the same |
| `TestView.Step` | frontend/src/components/TestView.jsx:27-58 | each event keeps the number of answers; only an edit changes an answer, and only the one it targets; `wasPasted` is set only on a paste, and only once a test is loaded; no event changes the test or the error line |
| `TestView.Run` | frontend/src/components/TestView.jsx:138-142 | any series of in-range edits and other events keeps the number of answers |
| `TestView.UneditedAnswerKept` | frontend/src/components/TestView.jsx:138-142 | an answer that no event edits keeps its value through any series of events |
| `TestView.LoadedTestNeedsEveryAnswer` | frontend/src/components/TestView.jsx:60-75 | once the test has loaded, submit is refused with "Please answer all questions" and sends nothing while some question's answer has never been edited |
| `TestView.PasteFlagMonotone` | frontend/src/components/TestView.jsx:14-46 | `wasPasted` starts false and is only ever set: after any events it is true exactly when it already was, or a test is loaded and a paste happened |
| `TestView.Payload` | frontend/src/components/TestView.jsx:158 | the request holds one entry per answer, in order, whose question index is its position |
| `TestView.Submit` | frontend/src/components/TestView.jsx:144-160 | without a loaded test there is no form and nothing happens; with one, the submission is blocked with "Please answer all questions", and nothing is sent, exactly when some answer is blank after trimming; otherwise the payload and the paste flag are sent and the view stays as it was |
| `TestView.OnSubmitReply` | frontend/src/components/TestView.jsx:162-169 | an accepted submission goes back to `/student`; a refused one shows the server's message, or "Failed to submit test" when there is none |
| `TestForm.AddQuestion` | frontend/src/components/TestForm.jsx:11 | appends exactly one empty question and keeps the existing questions and the title |
| `TestForm.UpdateQuestion` | frontend/src/components/TestForm.jsx:12-16 | replaces only the given question and keeps the length |
| `TestForm.Prompts` | frontend/src/components/TestForm.jsx:31 | maps each question string, in order, to an entry with that text |
| `TestForm.Create` | frontend/src/components/TestForm.jsx:18-31 | creation is blocked with "Please fill in all fields", and nothing is sent, exactly when the title or some question is blank after trimming; otherwise the title and the questions go out in order |
| `TestForm.OnCreateReply` | frontend/src/components/TestForm.jsx:33-40 | success resets the form to an empty title, one empty question and no error; a refusal keeps the form and shows the server's message or "Failed to create test" |
| `TestForm.Step` | frontend/src/components/TestForm.jsx:11-16 | no event empties the question list |
| `TestForm.NeverEmpty` | frontend/src/components/TestForm.jsx:8-16 | a form with at least one question keeps at least one through any series of events |
| `TestForm.AlwaysAQuestion` | frontend/src/components/TestForm.jsx:8-11 | the form starts with one question and always has at least one |
| `JsStrings.TrimStart` | frontend/src/components/TestView.jsx:146 | removes exactly the leading white space: the result is a suffix that does not start with white space |
| `JsStrings.TrimEnd` | frontend/src/components/TestView.jsx:146 | removes exactly the trailing white space: the result is a prefix that does not end with white space |
| `JsStrings.BlankIffAllSpace` | frontend/src/components/TestView.jsx:146 | a string is blank after trimming exactly when every character is ECMAScript white space |
| `JsStrings.NotBlankIsNonEmpty` | frontend/src/components/TestForm.jsx:20 | a title that passes the form's check is non-empty, so it is truthy on the server |
| `JsStrings.LowerChar` | backend/controllers/testController.js:14 | maps `A`..`Z` to `a`..`z` and leaves every other character alone |
| `JsStrings.Lower` | backend/controllers/testController.js:14 | lower-cases each character in place, keeps the length, and leaves no upper-case letter behind |
| `JsStrings.LowerIdempotent` | backend/controllers/testController.js:14 | lower-casing twice is the same as lower-casing once |
| `ClientServer.FormRequestAccepted` | frontend/src/components/TestForm.jsx:20-31 | a request the form lets through, from a form with a question, passes the server's check; the created test holds the form's title and questions in order |
| `ClientServer.EveryFormRequestAccepted` | frontend/src/components/TestForm.jsx:8-31 | every request the form sends, after any edits from its initial state, passes `createTest`'s validation (the request carries no `Authorization` header, so whether the token check admits it is outside this model) |
| `Http.RefusalNotOk` | frontend/src/components/TestView.jsx:162 | every status a handler refuses with lies outside the 2xx range, so `res.ok` is false for every refusal |
| `ClientServer.SubmitReplyShown` | frontend/src/components/TestView.jsx:162-169 | every `submitTest` response reaches the view; an admission goes back to `/student`, and a refusal shows exactly the server's message rather than the view's fallback text |
| `ClientServer.ViewSubmissionStored` | frontend/src/components/TestView.jsx:146-159 | a submission the loaded exam view lets through, from an assigned student who has not yet submitted, is admitted; the stored submission holds the view's answers with their positions as question indices, and the view's paste flag |

## Left out

- The three-warning auto-submission and the 5-second warnings promised by the guideline text have no code, so they are not modelled.
- Concurrency: `submitTest` reads, checks, pushes and saves. The model takes it as one atomic step and says nothing about two racing requests.
- Persistence failures: a failing MongoDB call inside a `try` gives 500 "Server error". The model includes only the 500 that comes from a missing `answers` field in `submitTest`.
- `populate`: a reply carries ids where the server sends populated e-mails.
- JSON casting: the model takes request fields as typed optional values. A truthy non-string title, or a non-array `answers` or an entry without `text`, is not modelled.
- Authentication: registration, login, password hashing, JWT signing and the `auth` middleware are left out. The caller is a parameter `Caller(id, role)`. `getTests`, `GET /students` and the student controller are plain queries and are not modelled.
- Transport and devices: sockets, `fetch`, the camera, canvas capture, timers, `alert` dialogs and navigation are all abstract events or outputs. Both views accept every `alert` event without checking whom it concerns (`FaceVerification.jsx:24`, `TestView.jsx:27`); which clients the server sends alerts to is not part of this model.
- `Plagiarism.CheckPlagiarism`: the similarity metric is a parameter, so concrete verdicts for concrete sentences are not derived.
- `JsStrings.LowerChar` and `JsStrings.Lower`: only `A`..`Z` are folded. `toLowerCase` also folds non-ASCII letters.
- `FaceVerification.Step`: the model takes a socket alert and the effect re-run it causes as one step. In the code, the interval and the camera restart when `faceDetected` changes. A tick that arrives between the state update and the re-run still sees the old value.
- `FaceVerification.Step` and `FaceVerification.DecidedIsFinal`: once the outcome is decided, the model ignores every later event. This is an assumption about the caller. On failure the view navigates to `/student` (`FaceVerification.jsx:34`), so it is left. On success it only calls `onVerificationSuccess` (line 31), and the model assumes that the caller then unmounts the view. If the caller keeps it mounted, later `alert` events still change `status` and `alertClass`. A new `onVerificationSuccess` function also re-runs the effect (line 48); its next tick sees `timeLeft` at 0 and calls the callback again. The model does not capture either.
- `FaceVerification`: the detection reply in this view is never read, so it is not modelled.
- `Proctoring.SendTimes`: it covers one chain of capture runs. In `FaceVerification`, a change of `faceDetected` re-runs the effect; its cleanup stops the camera but cannot cancel the pending `setTimeout` (line 110), and the re-run restarts the camera (lines 22, 55-56). `TestView` has the same restart: a change of the route's `id` re-runs its effect (lines 22-39) while the video element stays mounted, the cleanup's `stopCamera` cannot cancel the pending `setTimeout` (line 135), and `startCamera` sets the streaming flag again. If the new stream is ready before the old timer fires, two chains send frames side by side. `Proctoring.StoppedCameraSendsNoMore` assumes the flag stays off, so it does not apply across such a restart.
- `TestView`: the view starts the camera on mount, before the test has loaded and the video element exists (lines 22-24, 80); whether the camera starts then depends on which of the two requests finishes first, which is not modelled.
- Runtime: `Unhandled` assumes Express 4, where a rejected promise in an `async` handler is not caught and the request is never answered. Under Express 5 it would become a 500 reply. On Node 15 or later the unhandled rejection also ends the server process. No file fixes either version.
- `TestView.UpdateAnswer`: requires the index to be in range. JavaScript would grow the array, but indices come from the rendered questions and are always in range.
- `TestForm.UpdateQuestion`: requires the index to be in range, for the same reason. `TestForm.Run` stops at an out-of-range edit.
- The paste listeners are never removed: `removeEventListener` is given a fresh function. Only the flag matters, and it can only go from false to true.

## Findings

| source | as written | input that shows it | evidently intended | confidence | as-written member | corrected member |
|---|---|---|---|---|---|---|
| backend/index.js:96-97 | for an unknown question id, `findById` gives `null`; reading `question.teacherId` then throws inside an `async` handler with no `try`, so the request is never answered under Express 4; on Node 15 or later the unhandled rejection also ends the server process | a student answers question 0 while no questions exist | an error reply such as 404, with nothing stored | not executed; high | `Server.AnswerQuestionAsWritten` (shown by `Server.MissingQuestionUnanswered`) | `Server.AnswerQuestion` |
| frontend/src/components/TestView.jsx:173-178 | every failure of `GET /tests` sets `error` but never `test` (lines 65-74); the page renders only "Loading..." while `test` is unset, and the error line sits inside the loaded branch, so the failure is never shown | the `GET /tests` request is rejected, its reply is not ok or not a JSON list, or it does not list the test's id | the error shown in place of the loading line | not executed; high | `TestView.PageAsWritten` (shown by `TestView.FailedLoadHidden`) | `TestView.PageShown` (with `TestView.FailedLoadShown` and `TestView.LoadedPageAgrees`) |

=== FILE: client_server.dfy ===
/** What the two forms send and what the server makes of it. */
module ClientServer {
  import opened Wrappers
  import opened JsStrings
  import opened Users
  import opened Http
  import opened TestModel
  import opened Plagiarism
  import TestForm
  import TestView
  import TestController

  /**
   * A request the new-test form lets through passes the server's check: its
   * title is not blank, hence not empty, and a form that has a question sends
   * a non-empty list. The created test holds the form's questions in order.
   */
  lemma FormRequestAccepted(f: TestForm.Form, caller: UserId)
    requires |f.questions| >= 1
    requires !IsBlank(f.title) && forall i :: 0 <= i < |f.questions| ==> !IsBlank(f.questions[i])
    ensures var req := TestForm.Create(f).request.value;
            var r := TestController.CreateTest(caller, Some(req.title), TestController.Items(req.questions));
            && r.Ok?
            && r.value.title == f.title && r.value.teacherId == caller
            && |r.value.questions| == |f.questions|
            && (forall k :: 0 <= k < |f.questions| ==> r.value.questions[k].text == f.questions[k])
  {
    NotBlankIsNonEmpty(f.title);
  }

  /** Every request of the form as a teacher uses it is accepted by the server. */
  lemma EveryFormRequestAccepted(events: seq<TestForm.Event>, caller: UserId)
    ensures var sent := TestForm.Create(TestForm.Run(TestForm.Initial, events)).request;
            sent.Some? ==>
            TestController.CreateTest(caller, Some(sent.value.title), TestController.Items(sent.value.questions)).Ok?
  {
    TestForm.AlwaysAQuestion(events);
    var f := TestForm.Run(TestForm.Initial, events);
    if TestForm.Create(f).request.Some? {
      FormRequestAccepted(f, caller);
    }
  }

  /**
   * A submission the loaded exam view lets through, from an assigned student who has
   * not submitted yet, is admitted: one submission is appended holding the
   * view's answers with their positions as question indices, and the view's
   * paste flag.
   */
  lemma ViewSubmissionStored(
    v: TestView.View, tests: TestController.Tests, id: TestId, student: UserId, now: Timestamp, sim: Similarity)
    requires v.test.Some?
    requires forall i :: 0 <= i < |v.answers| ==> !IsBlank(v.answers[i])
    requires id in tests && student in tests[id].assignedStudents && !HasSubmitted(tests[id], student)
    ensures var answers := TestView.Payload(v.answers);
            var h := TestController.SubmitTest(tests, id, student, TestView.Submit(v).request.value, now, sim);
            && h.response.Ok?
            && h.response.value.submissions == tests[id].submissions +
               [Submission(student, answers, now, v.wasPasted, TestController.AnyPlagiarised(answers, sim))]
  {
    var body := TestView.Submit(v).request.value;
    assert body == TestController.SubmitBody(Some(TestView.Payload(v.answers)), Some(v.wasPasted));
    TestController.AdmittedSubmission(tests, id, student, body, now, sim);
  }

  /**
   * What the exam view's `fetch` makes of a `submitTest` response: the
   * submission is ok; a refusal is not ok, since its status lies outside the
   * 2xx range (`Http.RefusalNotOk`), and carries the `message` of its body;
   * a request never answered gives no reply.
   */
  function SubmitReplyOf(response: Response<Test>): Option<TestView.SubmitReply> {
    match response
    case Ok(_) => Some(TestView.Accepted)
    case Rejected(_, message) => Some(TestView.Refused(Some(message)))
    case Unhandled(_) => None
  }

  /**
   * Every submission is answered. An admitted one takes the view back to
   * `/student`; a refused one stays and shows exactly the server's message,
   * never the view's own fallback text.
   */
  lemma SubmitReplyShown(
    v: TestView.View, tests: TestController.Tests, id: TestId, student: UserId, body: TestController.SubmitBody,
    now: Timestamp, sim: Similarity)
    ensures var h := TestController.SubmitTest(tests, id, student, body, now, sim);
            var reply := SubmitReplyOf(h.response);
            && reply.Some?
            && (h.response.Ok? ==> TestView.OnSubmitReply(v, reply.value) == TestView.AfterReply(v, Some(TestView.StudentRoute)))
            && (h.response.Rejected? ==>
                  TestView.OnSubmitReply(v, reply.value) == TestView.AfterReply(v.(error := Some(h.response.message)), None))
  {
  }
}

=== FILE: face_verification.dfy ===
/**
 * The pre-exam face check. Nothing happens until Start Exam is pressed; then
 * a one-second countdown from 15 runs while the server's face alerts arrive
 * over the socket. When the countdown runs out the check succeeds exactly
 * when a `success` alert has been seen; otherwise the student gets a notice
 * and is sent back to the dashboard. Timer ticks, socket alerts and camera
 * callbacks are abstract events; the camera's streaming flag, which only the
 * capture loop reads, is modelled by `Proctoring.SendTimes`.
 */
module FaceVerification {
  import opened Proctoring

  const CountdownStart: nat := 15
  const InitialStatus := "Initializing camera..."
  const CameraDeniedStatus := "Camera access denied"
  const DetectErrorStatus := "Error detecting face"
  const FailureNotice := "Face verification failed. Please try again."
  const StudentRoute := "/student"

  /** `Verified`: `onVerificationSuccess()` was called; `Failed`: the notice was shown and the view navigated away. */
  datatype Outcome = Pending | Verified | Failed(notice: string, route: string)

  datatype State = State(
    examStarted: bool,
    timeLeft: nat,
    faceDetected: bool,
    status: string,
    alertClass: string,
    outcome: Outcome)

  datatype Event =
    | StartExam                               // the Start Exam button
    | Tick                                    // one firing of the one-second interval
    | SocketAlert(kind: string, message: string)
    | CameraDenied                            // `getUserMedia` rejected
    | DetectRequestFailed                     // the `/detect-faces` request failed

  const Init := State(false, CountdownStart, false, InitialStatus, "", Pending)

  predicate IsSuccessAlert(e: Event) {
    e.SocketAlert? && e.kind == "success"
  }

  /**
   * One event. Once the outcome is decided nothing more happens: a failure
   * navigates away, and after a success the caller is taken to unmount the
   * view. Before Start Exam the interval and the socket handler are not
   * installed, so only Start Exam has an effect.
   */
  function Step(s: State, e: Event): (r: State)
    ensures s.outcome != Pending ==> r == s
    ensures !s.examStarted && e != StartExam ==> r == s
    ensures s.examStarted ==> r.examStarted
    ensures r.timeLeft == s.timeLeft || (e == Tick && (r.timeLeft == s.timeLeft - 1 || (s.timeLeft <= 1 && r.timeLeft == 0)))
    ensures s.faceDetected ==> r.faceDetected
    ensures r.faceDetected != s.faceDetected ==> IsSuccessAlert(e)
    ensures r.outcome != s.outcome ==>
            && e == Tick && s.examStarted && s.timeLeft <= 1 && r.timeLeft == 0
            && (r.outcome == Verified <==> s.faceDetected)
            && (r.outcome != Verified ==> r.outcome == Failed(FailureNotice, StudentRoute))
    ensures e == CameraDenied ==> r.timeLeft == s.timeLeft && r.outcome == s.outcome
    ensures e == CameraDenied && s.examStarted && s.outcome == Pending ==>
            r.status == CameraDeniedStatus && r.alertClass == DangerClass
    ensures e.SocketAlert? && s.examStarted && s.outcome == Pending ==>
            r.status == e.message && r.alertClass == AlertClass(e.kind)
  {
    if s.outcome != Pending then s
    else if e == StartExam then s.(examStarted := true)
    else if !s.examStarted then s
    else
      match e
      case StartExam => s
      case Tick =>
        if s.timeLeft <= 1 then
          s.(timeLeft := 0, outcome := if s.faceDetected then Verified else Failed(FailureNotice, StudentRoute))
        else s.(timeLeft := s.timeLeft - 1)
      case SocketAlert(kind, message) =>
        s.(status := message, alertClass := AlertClass(kind), faceDetected := s.faceDetected || kind == "success")
      case CameraDenied => s.(status := CameraDeniedStatus, alertClass := DangerClass)
      case DetectRequestFailed => s.(status := DetectErrorStatus, alertClass := DangerClass)
  }

  /** The state after a series of events. */
  function Run(s: State, events: seq<Event>): State
    decreases |events|
  {
    if events == [] then s else Run(Step(s, events[0]), events[1..])
  }

  /** The number of ticks among `events`. */
  function Ticks(events: seq<Event>): nat
    decreases |events|
  {
    if events == [] then 0 else (if events[0] == Tick then 1 else 0) + Ticks(events[1..])
  }

  /** Some `success` alert arrives while fewer than `t` ticks have gone by. */
  predicate SuccessBefore(events: seq<Event>, t: int) {
    exists i :: 0 <= i < |events| && IsSuccessAlert(events[i]) && Ticks(events[..i]) < t
  }

  /** What every reachable state satisfies. */
  predicate Inv(s: State) {
    && s.timeLeft <= CountdownStart
    && (s.outcome == Pending ==> s.timeLeft >= 1)
    && (s.outcome != Pending ==> s.timeLeft == 0 && s.examStarted)
    && (!s.examStarted ==> s == Init)
  }

  lemma StepKeepsInv(s: State, e: Event)
    requires Inv(s)
    ensures Inv(Step(s, e))
  {
  }

  lemma {:induction false} RunAppend(s: State, a: seq<Event>, b: seq<Event>)
    ensures Run(s, a + b) == Run(Run(s, a), b)
    decreases |a|
  {
    if a != [] {
      assert (a + b)[0] == a[0];
      assert (a + b)[1..] == a[1..] + b;
      RunAppend(Step(s, a[0]), a[1..], b);
    } else {
      assert a + b == b;
    }
  }

  /** Every state reachable from the initial one satisfies the invariant. */
  lemma {:induction false} RunKeepsInv(s: State, events: seq<Event>)
    requires Inv(s)
    ensures Inv(Run(s, events))
    decreases |events|
  {
    if events != [] {
      StepKeepsInv(s, events[0]);
      RunKeepsInv(Step(s, events[0]), events[1..]);
    }
  }

  /** Before Start Exam, no countdown runs and no alert is handled. */
  lemma {:induction false} NothingBeforeStart(events: seq<Event>)
    requires forall i :: 0 <= i < |events| ==> events[i] != StartExam
    ensures Run(Init, events) == Init
    decreases |events|
  {
    if events != [] {
      NothingBeforeStart(events[1..]);
    }
  }

  /** A decided state ignores every later event. */
  lemma {:induction false} DecidedIsFinal(s: State, events: seq<Event>)
    requires s.outcome != Pending
    ensures Run(s, events) == s
    decreases |events|
  {
    if events != [] {
      DecidedIsFinal(s, events[1..]);
    }
  }

  /** Counting ticks in a prefix, one event at a time. */
  lemma TicksPrefix(events: seq<Event>, i: nat)
    requires 1 <= i <= |events|
    ensures Ticks(events[..i]) == (if events[0] == Tick then 1 else 0) + Ticks(events[1..][..i - 1])
  {
    assert events[..i][0] == events[0];
    assert events[..i][1..] == events[1..][..i - 1];
  }

  /** `SuccessBefore` unfolded by one event. */
  lemma SuccessBeforeShift(events: seq<Event>, t: int)
    requires events != []
    ensures SuccessBefore(events, t) <==>
            (IsSuccessAlert(events[0]) && 0 < t) || SuccessBefore(events[1..], t - (if events[0] == Tick then 1 else 0))
  {
    var d := if events[0] == Tick then 1 else 0;
    var rest := events[1..];
    assert Ticks(events[..0]) == 0 by { assert events[..0] == []; }
    if SuccessBefore(events, t) {
      var i :| 0 <= i < |events| && IsSuccessAlert(events[i]) && Ticks(events[..i]) < t;
      if i > 0 {
        TicksPrefix(events, i);
        assert rest[i - 1] == events[i];
      }
    }
    if SuccessBefore(rest, t - d) {
      var j :| 0 <= j < |rest| && IsSuccessAlert(rest[j]) && Ticks(rest[..j]) < t - d;
      TicksPrefix(events, j + 1);
      assert events[j + 1] == rest[j];
    }
  }

  /**
   * From a running, undecided countdown with `t` seconds left: the outcome
   * stays undecided exactly while fewer than `t` ticks have come, the
   * display counts down by one per tick, and once decided the outcome is
   * success exactly when a face had already been detected or a `success`
   * alert arrived before the deciding tick.
   */
  lemma {:induction false} Countdown(s: State, events: seq<Event>)
    requires s.examStarted && s.outcome == Pending && s.timeLeft >= 1
    ensures var r := Run(s, events);
            && (r.outcome == Pending <==> Ticks(events) < s.timeLeft)
            && (r.outcome == Pending ==> r.timeLeft == s.timeLeft - Ticks(events))
            && (r.outcome != Pending ==> r.timeLeft == 0)
            && (r.outcome != Pending ==> (r.outcome == Verified <==> s.faceDetected || SuccessBefore(events, s.timeLeft)))
            && (r.outcome != Pending && r.outcome != Verified ==> r.outcome == Failed(FailureNotice, StudentRoute))
    decreases |events|
  {
    if events == [] {
    } else {
      var e := events[0];
      var rest := events[1..];
      var s' := Step(s, e);
      SuccessBeforeShift(events, s.timeLeft);
      if e == Tick && s.timeLeft <= 1 {
        DecidedIsFinal(s', rest);
        assert !SuccessBefore(rest, 0);
      } else {
        Countdown(s', rest);
      }
    }
  }

  /**
   * The whole check, from opening the view: whatever happens before Start
   * Exam is ignored; after it, the outcome is decided on exactly the 15th
   * tick, and it is success exactly when a `success` alert arrived before
   * that tick; otherwise the failure notice and the way back to `/student`.
   */
  lemma VerificationOutcome(before: seq<Event>, after: seq<Event>)
    requires forall i :: 0 <= i < |before| ==> before[i] != StartExam
    ensures var r := Run(Init, before + [StartExam] + after);
            && (r.outcome == Pending <==> Ticks(after) < CountdownStart)
            && (r.outcome == Pending ==> r.timeLeft == CountdownStart - Ticks(after))
            && (r.outcome != Pending ==> r.timeLeft == 0)
            && (r.outcome != Pending ==> (r.outcome == Verified <==> SuccessBefore(after, CountdownStart)))
            && (r.outcome != Pending && r.outcome != Verified ==> r.outcome == Failed(FailureNotice, StudentRoute))
  {
    RunAppend(Init, before + [StartExam], after);
    RunAppend(Init, before, [StartExam]);
    NothingBeforeStart(before);
    Countdown(Step(Init, StartExam), after);
  }
}

=== FILE: http.dfy ===
/** What an Express handler hands back, once routing and JSON encoding are stripped off. */
module Http {

  /** The error statuses the handlers use. */
  datatype Status = BadRequest | Forbidden | NotFound | ServerError

  /** The numeric status sent; none of them is in the 2xx range `fetch` treats as ok. */
  function Code(s: Status): (c: nat)
    ensures 400 <= c < 600
  {
    match s
    case BadRequest => 400
    case Forbidden => 403
    case NotFound => 404
    case ServerError => 500
  }

  /** A client's `res.ok` is false for every refusal, so no refusal reads as success. */
  lemma RefusalNotOk(s: Status)
    ensures !(200 <= Code(s) < 300)
  {
  }

  /**
   * `Ok`: a 2xx reply carrying the handler's JSON body.
   * `Rejected`: `res.status(code).json({ message })`.
   * `Unhandled`: an exception escaped an `async` handler that has no `try`;
   * under Express 4, assumed here, it is not caught and the request is never
   * answered.
   */
  datatype Response<+T> = Ok(value: T) | Rejected(status: Status, message: string) | Unhandled(reason: string)

  /** The stored state after a request, together with the reply. */
  datatype Handled<+S, +T> = Handled(state: S, response: Response<T>)

  const ServerErrorMessage := "Server error"
  const UnauthorizedMessage := "Unauthorized"
}

=== FILE: js_strings.dfy ===
/**
 * The two JavaScript string operations the core relies on:
 * `String.prototype.trim` (used as `!s.trim()` to detect blank input) and
 * `String.prototype.toLowerCase` (used before comparing answer texts).
 */
module JsStrings {

  /** WhiteSpace and LineTerminator code points of ECMAScript, the set `trim` removes. */
  predicate IsJsSpace(c: char) {
    || c == '\t' || c == '\n' || c == '\U{B}' || c == '\U{C}' || c == '\r' || c == ' '
    || c == '\U{A0}' || c == '\U{1680}' || ('\U{2000}' <= c <= '\U{200A}')
    || c == '\U{2028}' || c == '\U{2029}' || c == '\U{202F}' || c == '\U{205F}'
    || c == '\U{3000}' || c == '\U{FEFF}'
  }

  /** `s` with its leading white space removed. */
  function TrimStart(s: string): (r: string)
    ensures |r| <= |s| && r == s[|s| - |r|..]
    ensures forall i :: 0 <= i < |s| - |r| ==> IsJsSpace(s[i])
    ensures |r| > 0 ==> !IsJsSpace(r[0])
  {
    if |s| > 0 && IsJsSpace(s[0]) then TrimStart(s[1..]) else s
  }

  /** `s` with its trailing white space removed. */
  function TrimEnd(s: string): (r: string)
    ensures |r| <= |s| && r == s[..|r|]
    ensures forall i :: |r| <= i < |s| ==> IsJsSpace(s[i])
    ensures |r| > 0 ==> !IsJsSpace(r[|r| - 1])
  {
    if |s| > 0 && IsJsSpace(s[|s| - 1]) then TrimEnd(s[..|s| - 1]) else s
  }

  /** `s` with white space removed at both ends (JavaScript's `trim`). */
  function Trim(s: string): string {
    TrimEnd(TrimStart(s))
  }

  /** A string that is empty after trimming; the empty string is the only falsy string. */
  predicate IsBlank(s: string) {
    Trim(s) == []
  }

  /** A string is blank exactly when every one of its characters is white space. */
  lemma {:induction false} BlankIffAllSpace(s: string)
    ensures IsBlank(s) <==> forall i :: 0 <= i < |s| ==> IsJsSpace(s[i])
  {
    var t := TrimStart(s);
    if forall i :: 0 <= i < |s| ==> IsJsSpace(s[i]) {
      assert t == [];
    } else {
      var k :| 0 <= k < |s| && !IsJsSpace(s[k]);
      assert k >= |s| - |t|;
      assert t[k - (|s| - |t|)] == s[k];
      assert TrimEnd(t) != [];
    }
  }

  /** A non-blank string is non-empty (so it is also truthy). */
  lemma NotBlankIsNonEmpty(s: string)
    ensures !IsBlank(s) ==> s != []
  {
  }

  /** ASCII case folding: `A`..`Z` to `a`..`z`, every other character kept. */
  function LowerChar(c: char): (d: char)
    ensures 'A' <= c <= 'Z' ==> 'a' <= d <= 'z' && d as int - c as int == 32
    ensures !('A' <= c <= 'Z') ==> d == c
  {
    if 'A' <= c <= 'Z' then (c as int + 32) as char else c
  }

  /** `s.toLowerCase()`, restricted to ASCII letters. */
  function Lower(s: string): (r: string)
    ensures |r| == |s|
    ensures forall i :: 0 <= i < |s| ==> r[i] == LowerChar(s[i])
    ensures forall i :: 0 <= i < |r| ==> !('A' <= r[i] <= 'Z')
  {
    seq(|s|, i requires 0 <= i < |s| => LowerChar(s[i]))
  }

  /** Lower-casing twice is lower-casing once. */
  lemma LowerIdempotent(s: string)
    ensures Lower(Lower(s)) == Lower(s)
  {
  }
}

=== FILE: plagiarism.dfy ===
/**
 * `checkPlagiarism`: the highest similarity between an answer and a fixed
 * corpus of reference texts, compared with a threshold. The similarity metric
 * (`compareTwoStrings` of the string-similarity package) is a parameter.
 */
module Plagiarism {
  import opened JsStrings

  /** A string-similarity metric. */
  type Similarity = (string, string) -> real

  /** The reference texts an answer is compared against. */
  const Corpus: seq<string> := [
    "Lorem ipsum dolor sit amet",
    "The quick brown fox jumps over the lazy dog",
    "To be or not to be, that is the question"
  ]

  /** An answer is flagged when its best similarity is strictly above this. */
  const Threshold: real := 0.6

  /** The similarity of (already lower-cased) `text` to one reference text. */
  function Score(text: string, source: string, sim: Similarity): real {
    sim(text, Lower(source))
  }

  /**
   * The running maximum of `forEach`: starts at `acc` and is raised by every
   * score strictly above it.
   */
  function MaxFrom(acc: real, text: string, sources: seq<string>, sim: Similarity): (m: real)
    ensures m >= acc
    ensures forall i :: 0 <= i < |sources| ==> Score(text, sources[i], sim) <= m
    ensures m == acc || exists i :: 0 <= i < |sources| && m == Score(text, sources[i], sim)
    decreases |sources|
  {
    if sources == [] then acc
    else
      var s := Score(text, sources[0], sim);
      assert forall i :: 1 <= i < |sources| ==> sources[i] == sources[1..][i - 1];
      MaxFrom(if s > acc then s else acc, text, sources[1..], sim)
  }

  /** The running maximum from a start at or below a bound ends above it exactly when some score is above it. */
  lemma MaxAboveIff(acc: real, text: string, sources: seq<string>, sim: Similarity, bound: real)
    requires acc <= bound
    ensures MaxFrom(acc, text, sources, sim) > bound <==>
            exists i :: 0 <= i < |sources| && Score(text, sources[i], sim) > bound
  {
    var m := MaxFrom(acc, text, sources, sim);
    if m > bound {
      var i :| 0 <= i < |sources| && m == Score(text, sources[i], sim);
    }
  }

  /** `maxSimilarity` after the loop over `sources`; it starts at 0. */
  function MaxSimilarity(text: string, sources: seq<string>, sim: Similarity): real {
    MaxFrom(0.0, Lower(text), sources, sim)
  }

  /** Flagged exactly when some source is more than 0.6 similar to the lower-cased text. */
  function FlaggedAgainst(text: string, sources: seq<string>, sim: Similarity): (flagged: bool)
    ensures flagged <==> exists i :: 0 <= i < |sources| && Score(Lower(text), sources[i], sim) > Threshold
  {
    MaxAboveIff(0.0, Lower(text), sources, sim, Threshold);
    MaxSimilarity(text, sources, sim) > Threshold
  }

  /**
   * `checkPlagiarism(text)`: flagged exactly when some reference text is more
   * than 0.6 similar to the lower-cased answer.
   */
  function CheckPlagiarism(text: string, sim: Similarity): (flagged: bool)
    ensures flagged <==> exists i :: 0 <= i < |Corpus| && Score(Lower(text), Corpus[i], sim) > Threshold
  {
    FlaggedAgainst(text, Corpus, sim)
  }

  /** When every similarity is at most 0 the running maximum stays 0, so nothing is flagged. */
  lemma NoSimilarityNoFlag(text: string, sim: Similarity)
    requires forall i :: 0 <= i < |Corpus| ==> Score(Lower(text), Corpus[i], sim) <= 0.0
    ensures MaxSimilarity(text, Corpus, sim) == 0.0
    ensures !CheckPlagiarism(text, sim)
  {
  }

  /** Both sides are lower-cased, so the verdict ignores the answer's case. */
  lemma CaseInsensitive(text: string, sim: Similarity)
    ensures CheckPlagiarism(Lower(text), sim) == CheckPlagiarism(text, sim)
  {
    LowerIdempotent(text);
  }
}

=== FILE: proctoring.dfy ===
/**
 * Pieces the two camera views share: the CSS class an alert's type selects,
 * and the capture loop's decision to send a frame and schedule the next one.
 */
module Proctoring {

  const SuccessClass := "alert-success"
  const WarningClass := "alert-warning"
  const DangerClass := "alert-danger"

  /** The status line's class: green for a success, amber for a warning, red for any other type. */
  function AlertClass(kind: string): (c: string)
    ensures c == SuccessClass <==> kind == "success"
    ensures c == WarningClass <==> kind == "warning"
    ensures c == DangerClass <==> kind != "success" && kind != "warning"
  {
    if kind == "success" then SuccessClass
    else if kind == "warning" then WarningClass
    else DangerClass
  }

  /** Milliseconds between captures before the exam and during it. */
  const VerificationIntervalMs: nat := 2000
  const ExamIntervalMs: nat := 3000

  /** What one run of `captureAndSend` does. */
  datatype CaptureStep = CaptureStep(frameSent: bool, rescheduled: bool)

  /**
   * `captureAndSend`: returns at once unless the camera is streaming and the
   * video and canvas elements are mounted; otherwise it sends one frame and
   * schedules the next run, whatever the reply to this one turns out to be.
   */
  function CaptureAndSend(streaming: bool, mounted: bool): (c: CaptureStep)
    ensures c.rescheduled <==> streaming && mounted
    ensures c.frameSent <==> c.rescheduled
  {
    if !streaming || !mounted then CaptureStep(false, false) else CaptureStep(true, true)
  }

  /**
   * Successive runs of the capture loop, the first at time `at`, each
   * reading the streaming flag as it is then (`stopCamera` clears it), and
   * each rescheduled run coming `intervalMs` after the one before. The result
   * is the times at which frames are sent: one per run, every `intervalMs`,
   * up to the first run that finds the camera stopped or the elements gone;
   * the loop ends there and no later run happens.
   */
  function SendTimes(at: int, streamingAt: seq<bool>, mounted: bool, intervalMs: nat): (times: seq<int>)
    ensures |times| <= |streamingAt|
    ensures forall k :: 0 <= k < |times| ==> times[k] == at + k * intervalMs
    ensures mounted ==> forall k :: 0 <= k < |times| ==> streamingAt[k]
    ensures mounted && |times| < |streamingAt| ==> !streamingAt[|times|]
    ensures forall j :: 0 <= j < |streamingAt| && !streamingAt[j] ==> |times| <= j
    ensures !mounted ==> times == []
    decreases |streamingAt|
  {
    if streamingAt == [] then []
    else if CaptureAndSend(streamingAt[0], mounted).rescheduled then
      [at] + SendTimes(at + intervalMs, streamingAt[1..], mounted, intervalMs)
    else []
  }

  /**
   * Once the camera is stopped, the loop sends no further frame: if the
   * flag is off from run `j` on, at most `j` frames are sent, at most one
   * per interval of the view (2 s before the exam, 3 s during it).
   */
  lemma StoppedCameraSendsNoMore(at: int, streamingAt: seq<bool>, mounted: bool, j: nat, exam: bool)
    requires j <= |streamingAt|
    requires forall k :: j <= k < |streamingAt| ==> !streamingAt[k]
    ensures var interval := if exam then ExamIntervalMs else VerificationIntervalMs;
            var times := SendTimes(at, streamingAt, mounted, interval);
            && |times| <= j
            && forall k :: 0 <= k < |times| ==> times[k] < at + j * interval
  {
    var interval := if exam then ExamIntervalMs else VerificationIntervalMs;
    var times := SendTimes(at, streamingAt, mounted, interval);
    if j < |streamingAt| {
      assert !streamingAt[j];
    }
    forall k | 0 <= k < |times|
      ensures times[k] < at + j * interval
    {
      assert j * interval == k * interval + (j - k) * interval;
    }
  }
}

=== FILE: seqs.dfy ===
/** Sequence helpers shared by the backend and the frontend model. */
module Seqs {

  /** Whether some element satisfies `p`, scanning from the front (JavaScript's `some`). */
  function Any<T>(xs: seq<T>, p: T -> bool): (b: bool)
    ensures b <==> exists i :: 0 <= i < |xs| && p(xs[i])
  {
    if xs == [] then false
    else if p(xs[0]) then true
    else
      assert forall i :: 1 <= i < |xs| ==> xs[i] == xs[1..][i - 1];
      Any(xs[1..], p)
  }

  /** No element occurs twice. */
  predicate NoDuplicates<T(==)>(xs: seq<T>) {
    forall i, j :: 0 <= i < j < |xs| ==> xs[i] != xs[j]
  }

  /** Appends `x` unless it is already present: an insert that keeps a list duplicate-free. */
  function InsertOnce<T(==,!new)>(xs: seq<T>, x: T): (r: seq<T>)
    ensures x in r
    ensures forall y :: y in r <==> y in xs || y == x
    ensures x in xs ==> r == xs
    ensures x !in xs ==> |r| == |xs| + 1 && r[..|xs|] == xs && r[|xs|] == x
    ensures NoDuplicates(xs) ==> NoDuplicates(r)
  {
    if x in xs then xs else xs + [x]
  }
}

=== FILE: server.dfy ===
/**
 * The route handlers of the server entry point that carry decisions:
 * adding a student to a teacher's roster, creating and listing questions,
 * and answering a question. Collections are kept in insertion order, and
 * `find` and `findOne` are assumed to scan them in that order; the database
 * does not promise it without a sort.
 */
module Server {
  import opened Wrappers
  import opened Users
  import opened Http
  import Seqs

  /** A question's id is its position in the collection. */
  type QuestionId = nat

  datatype QuestionAnswer = QuestionAnswer(studentId: UserId, text: string)

  datatype Question = Question(text: string, teacherId: UserId, answers: seq<QuestionAnswer>)

  /** A teacher's roster. */
  datatype StudentList = StudentList(teacherId: UserId, studentIds: seq<UserId>)

  datatype Db = Db(users: seq<User>, questions: seq<Question>, rosters: seq<StudentList>)

  const NotAuthorizedToAnswer := "Not authorized to answer"
  const StudentNotFound := "Student not found"
  const QuestionNotFound := "Question not found"
  const QuestionTextRequired := "Question validation failed: text is required"
  const NullQuestion := "TypeError: cannot read teacherId of null"

  // ---------------------------------------------------------------- rosters

  /** Looking up a teacher's roster: the position of the first roster of `teacher`. */
  function RosterOf(rosters: seq<StudentList>, teacher: UserId): (r: Option<nat>)
    ensures r.None? <==> forall k :: 0 <= k < |rosters| ==> rosters[k].teacherId != teacher
    ensures r.Some? ==> r.value < |rosters| && rosters[r.value].teacherId == teacher
    ensures r.Some? ==> forall k :: 0 <= k < r.value ==> rosters[k].teacherId != teacher
    decreases |rosters|
  {
    if rosters == [] then None
    else if rosters[0].teacherId == teacher then Some(0)
    else
      match RosterOf(rosters[1..], teacher)
      case None => None
      case Some(k) => Some(k + 1)
  }

  /** Looking up a roster by student: the first roster listing `student`. */
  function RosterListing(rosters: seq<StudentList>, student: UserId): (r: Option<StudentList>)
    ensures r.None? <==> forall k :: 0 <= k < |rosters| ==> student !in rosters[k].studentIds
    ensures r.Some? ==> r.value in rosters && student in r.value.studentIds
    ensures r.Some? ==> exists k :: 0 <= k < |rosters| && rosters[k] == r.value &&
                                    forall j :: 0 <= j < k ==> student !in rosters[j].studentIds
    decreases |rosters|
  {
    if rosters == [] then None
    else if student in rosters[0].studentIds then Some(rosters[0])
    else
      assert forall k :: 1 <= k < |rosters| ==> rosters[k] == rosters[1..][k - 1];
      RosterListing(rosters[1..], student)
  }

  /** Some roster of `teacher` lists `student`. */
  predicate OnRosterOf(rosters: seq<StudentList>, teacher: UserId, student: UserId) {
    exists k :: 0 <= k < |rosters| && rosters[k].teacherId == teacher && student in rosters[k].studentIds
  }

  /** The student list of `teacher`'s roster, empty when there is none. */
  function Members(rosters: seq<StudentList>, teacher: UserId): seq<UserId> {
    match RosterOf(rosters, teacher)
    case None => []
    case Some(k) => rosters[k].studentIds
  }

  /** The contract of `RosterOf` pins its result down: the first matching position. */
  lemma RosterOfDetermined(rosters: seq<StudentList>, teacher: UserId, r: Option<nat>)
    requires r.None? ==> forall k :: 0 <= k < |rosters| ==> rosters[k].teacherId != teacher
    requires r.Some? ==> r.value < |rosters| && rosters[r.value].teacherId == teacher
    requires r.Some? ==> forall k :: 0 <= k < r.value ==> rosters[k].teacherId != teacher
    ensures RosterOf(rosters, teacher) == r
  {
  }

  /** At most one roster per teacher, and no student twice on a roster. */
  predicate RostersWellFormed(rosters: seq<StudentList>) {
    && (forall i, j :: 0 <= i < j < |rosters| ==> rosters[i].teacherId != rosters[j].teacherId)
    && (forall k :: 0 <= k < |rosters| ==> Seqs.NoDuplicates(rosters[k].studentIds))
  }

  /** Creating a roster for a teacher who had none. */
  lemma AppendRoster(rosters: seq<StudentList>, teacher: UserId, sid: UserId)
    requires RosterOf(rosters, teacher).None?
    ensures var rosters' := rosters + [StudentList(teacher, [sid])];
            && RosterOf(rosters', teacher) == Some(|rosters|)
            && Members(rosters', teacher) == [sid]
            && (forall t :: t != teacher ==> Members(rosters', t) == Members(rosters, t))
            && (RostersWellFormed(rosters) ==> RostersWellFormed(rosters'))
  {
    var rosters' := rosters + [StudentList(teacher, [sid])];
    RosterOfDetermined(rosters', teacher, Some(|rosters|));
    forall t | t != teacher
      ensures Members(rosters', t) == Members(rosters, t)
    {
      RosterOfDetermined(rosters', t, RosterOf(rosters, t));
    }
  }

  /** Adding a student to the roster at position `k`, the one of `teacher`. */
  lemma UpdateRoster(rosters: seq<StudentList>, k: nat, teacher: UserId, sid: UserId)
    requires RosterOf(rosters, teacher) == Some(k)
    ensures var rosters' := rosters[k := rosters[k].(studentIds := Seqs.InsertOnce(rosters[k].studentIds, sid))];
            && RosterOf(rosters', teacher) == Some(k)
            && Members(rosters', teacher) == Seqs.InsertOnce(Members(rosters, teacher), sid)
            && (forall t :: t != teacher ==> Members(rosters', t) == Members(rosters, t))
            && (RostersWellFormed(rosters) ==> RostersWellFormed(rosters'))
  {
    var rosters' := rosters[k := rosters[k].(studentIds := Seqs.InsertOnce(rosters[k].studentIds, sid))];
    forall t
      ensures RosterOf(rosters', t) == RosterOf(rosters, t)
    {
      RosterOfDetermined(rosters', t, RosterOf(rosters, t));
    }
  }

  /**
   * `POST /students`: a non-teacher is refused (403) and an e-mail naming no
   * student is a 404, both leaving every roster as it was. Otherwise the
   * student is put on the caller's roster, which is created first if the
   * caller has none; a student already on it is not added again. The reply is
   * the roster's student list.
   */
  function AddStudent(db: Db, caller: Caller, email: string): (h: Handled<Db, seq<UserId>>)
    ensures !h.response.Ok? ==> h.state == db
    ensures caller.role != Teacher ==> h.response == Rejected(Forbidden, UnauthorizedMessage)
    ensures caller.role == Teacher && FindStudent(db.users, email).None? ==> h.response == Rejected(NotFound, StudentNotFound)
    ensures h.response.Ok? <==> caller.role == Teacher && FindStudent(db.users, email).Some?
    ensures h.state.users == db.users && h.state.questions == db.questions
    ensures h.response.Ok? ==>
            var s := FindStudent(db.users, email).value.id;
            && RosterOf(h.state.rosters, caller.id).Some?
            && h.response.value == Members(h.state.rosters, caller.id)
            && (forall x :: x in Members(h.state.rosters, caller.id) <==> x in Members(db.rosters, caller.id) || x == s)
            && (s in Members(db.rosters, caller.id) ==> h.state == db)
            && (forall t :: t != caller.id ==> Members(h.state.rosters, t) == Members(db.rosters, t))
            && (RostersWellFormed(db.rosters) ==> RostersWellFormed(h.state.rosters))
  {
    if caller.role != Teacher then
      Handled(db, Rejected(Forbidden, UnauthorizedMessage))
    else
      match FindStudent(db.users, email)
      case None => Handled(db, Rejected(NotFound, StudentNotFound))
      case Some(student) =>
        match RosterOf(db.rosters, caller.id)
        case None =>
          var list := StudentList(caller.id, [student.id]);
          AppendRoster(db.rosters, caller.id, student.id);
          Handled(db.(rosters := db.rosters + [list]), Ok(list.studentIds))
        case Some(k) =>
          var list := db.rosters[k];
          var list' := list.(studentIds := Seqs.InsertOnce(list.studentIds, student.id));
          var rosters' := db.rosters[k := list'];
          UpdateRoster(db.rosters, k, caller.id, student.id);
          assert student.id in list.studentIds ==> rosters' == db.rosters;
          Handled(db.(rosters := rosters'), Ok(list'.studentIds))
  }

  /** Adding a student who is already on the roster changes nothing. */
  lemma AddStudentIdempotent(db: Db, caller: Caller, email: string)
    ensures var once := AddStudent(db, caller, email);
            AddStudent(once.state, caller, email) == once
  {
  }

  // ---------------------------------------------------------------- questions

  /**
   * `POST /questions`: a non-teacher is refused (403). A missing or empty
   * text fails the schema's `required` check inside `save`, which this handler
   * does not catch. Otherwise the question is stored, owned by the caller and
   * with no answers; the reply is its id.
   */
  function PostQuestion(db: Db, caller: Caller, text: Option<string>): (h: Handled<Db, QuestionId>)
    ensures !h.response.Ok? ==> h.state == db
    ensures caller.role != Teacher ==> h.response == Rejected(Forbidden, UnauthorizedMessage)
    ensures caller.role == Teacher && (text.None? || text.value == []) ==> h.response.Unhandled?
    ensures h.response.Ok? <==> caller.role == Teacher && text.Some? && text.value != []
    ensures h.response.Ok? ==>
            && h.response.value == |db.questions|
            && h.state == db.(questions := db.questions + [Question(text.value, caller.id, [])])
  {
    if caller.role != Teacher then
      Handled(db, Rejected(Forbidden, UnauthorizedMessage))
    else if text.None? || text.value == [] then
      Handled(db, Unhandled(QuestionTextRequired))
    else
      Handled(db.(questions := db.questions + [Question(text.value, caller.id, [])]), Ok(|db.questions|))
  }

  /** The ids, in order, of `teacher`'s questions from position `from` on. */
  function OwnedFrom(questions: seq<Question>, teacher: UserId, from: nat): (ids: seq<QuestionId>)
    requires from <= |questions|
    ensures forall j :: 0 <= j < |ids| ==> from <= ids[j] < |questions| && questions[ids[j]].teacherId == teacher
    ensures forall i :: from <= i < |questions| && questions[i].teacherId == teacher ==> i in ids
    ensures forall a, b :: 0 <= a < b < |ids| ==> ids[a] < ids[b]
    decreases |questions| - from
  {
    if from == |questions| then []
    else if questions[from].teacherId == teacher then [from] + OwnedFrom(questions, teacher, from + 1)
    else OwnedFrom(questions, teacher, from + 1)
  }

  /** The ids of all of `teacher`'s questions, in order. */
  function OwnedBy(questions: seq<Question>, teacher: UserId): (ids: seq<QuestionId>)
    ensures forall j :: 0 <= j < |ids| ==> ids[j] < |questions| && questions[ids[j]].teacherId == teacher
    ensures forall i :: 0 <= i < |questions| ==> (i in ids <==> questions[i].teacherId == teacher)
    ensures forall a, b :: 0 <= a < b < |ids| ==> ids[a] < ids[b]
  {
    OwnedFrom(questions, teacher, 0)
  }

  /**
   * `GET /questions`: a teacher sees their own questions; a student sees the
   * questions of the teacher whose roster is the first to list them, and
   * nothing when no roster lists them. Nothing is stored.
   */
  function GetQuestions(db: Db, caller: Caller): (ids: seq<QuestionId>)
    ensures forall j :: 0 <= j < |ids| ==> ids[j] < |db.questions|
    ensures caller.role == Teacher ==>
            forall i :: 0 <= i < |db.questions| ==> (i in ids <==> db.questions[i].teacherId == caller.id)
    ensures caller.role != Teacher && RosterListing(db.rosters, caller.id).None? ==> ids == []
    ensures caller.role != Teacher && RosterListing(db.rosters, caller.id).Some? ==>
            var teacher := RosterListing(db.rosters, caller.id).value.teacherId;
            forall i :: 0 <= i < |db.questions| ==> (i in ids <==> db.questions[i].teacherId == teacher)
    ensures forall a, b :: 0 <= a < b < |ids| ==> ids[a] < ids[b]
  {
    if caller.role == Teacher then OwnedBy(db.questions, caller.id)
    else
      match RosterListing(db.rosters, caller.id)
      case None => []
      case Some(list) => OwnedBy(db.questions, list.teacherId)
  }

  /** A student sees only questions of a teacher whose roster lists them. */
  lemma StudentSeesOnlyRosteredQuestions(db: Db, caller: Caller)
    requires caller.role == Student
    ensures forall j :: 0 <= j < |GetQuestions(db, caller)| ==>
            var q := GetQuestions(db, caller)[j];
            q < |db.questions| && OnRosterOf(db.rosters, db.questions[q].teacherId, caller.id)
  {
    var ids := GetQuestions(db, caller);
    if RosterListing(db.rosters, caller.id).Some? {
      var list := RosterListing(db.rosters, caller.id).value;
      var k :| 0 <= k < |db.rosters| && db.rosters[k] == list;
      assert forall j :: 0 <= j < |ids| ==> db.questions[ids[j]].teacherId == db.rosters[k].teacherId;
    }
  }

  /** The teacher whose questions `GET /questions` lists for `caller`, if any. */
  function ListedTeacher(db: Db, caller: Caller): Option<UserId> {
    if caller.role == Teacher then Some(caller.id)
    else
      match RosterListing(db.rosters, caller.id)
      case None => None
      case Some(list) => Some(list.teacherId)
  }

  /** A new last question joins its owner's listing at the end and no other listing. */
  lemma {:induction false} OwnedFromAppend(questions: seq<Question>, q: Question, teacher: UserId, from: nat)
    requires from <= |questions|
    ensures OwnedFrom(questions + [q], teacher, from) ==
            OwnedFrom(questions, teacher, from) + (if q.teacherId == teacher then [|questions|] else [])
    decreases |questions| - from
  {
    var qs := questions + [q];
    if from == |questions| {
      assert qs[from] == q;
      assert OwnedFrom(qs, teacher, from + 1) == [];
    } else {
      assert qs[from] == questions[from];
      OwnedFromAppend(questions, q, teacher, from + 1);
    }
  }

  /**
   * `POST /questions` then `GET /questions`: the new question's id is added
   * at the end of the listing of every caller who is shown the poster's
   * questions (the poster, and the students whose listed roster is the
   * poster's), and every other listing is unchanged.
   */
  lemma PostedQuestionListed(db: Db, caller: Caller, text: Option<string>, viewer: Caller)
    requires caller.role == Teacher && text.Some? && text.value != []
    ensures var db' := PostQuestion(db, caller, text).state;
            GetQuestions(db', viewer) ==
            GetQuestions(db, viewer) + (if ListedTeacher(db, viewer) == Some(caller.id) then [|db.questions|] else [])
  {
    var q := Question(text.value, caller.id, []);
    match ListedTeacher(db, viewer)
    case None =>
    case Some(t) => OwnedFromAppend(db.questions, q, t, 0);
  }

  /** Appending an answer once authorization has passed. */
  function AppendAnswer(db: Db, id: QuestionId, student: UserId, text: string): (h: Handled<Db, Question>)
    requires id < |db.questions|
    ensures |h.state.questions| == |db.questions|
    ensures h.response.Ok? && h.response.value == h.state.questions[id]
    ensures h.state.users == db.users && h.state.rosters == db.rosters
    ensures forall j :: 0 <= j < |db.questions| && j != id ==> h.state.questions[j] == db.questions[j]
    ensures var before := db.questions[id];
            var after := h.state.questions[id];
            && after.(answers := before.answers) == before
            && after.answers == before.answers + [QuestionAnswer(student, text)]
  {
    var q := db.questions[id];
    var q' := q.(answers := q.answers + [QuestionAnswer(student, text)]);
    Handled(db.(questions := db.questions[id := q']), Ok(q'))
  }

  /**
   * `POST /questions/:id/answer` as written: a non-student is refused (403);
   * an unknown id makes `question` null and reading its `teacherId` throws,
   * which the handler does not catch; a student not on the owner's roster is
   * refused (403). Otherwise the answer is appended.
   */
  function AnswerQuestionAsWritten(db: Db, caller: Caller, id: QuestionId, text: string): (h: Handled<Db, Question>)
    ensures !h.response.Ok? ==> h.state == db
    ensures caller.role == Student && id >= |db.questions| ==> h.response == Unhandled(NullQuestion)
  {
    if caller.role != Student then Handled(db, Rejected(Forbidden, UnauthorizedMessage))
    else if id >= |db.questions| then Handled(db, Unhandled(NullQuestion))
    else if !OnRosterOf(db.rosters, db.questions[id].teacherId, caller.id) then
      Handled(db, Rejected(Forbidden, NotAuthorizedToAnswer))
    else AppendAnswer(db, id, caller.id, text)
  }

  /** An answer to a question that does not exist leaves the request unanswered. */
  lemma MissingQuestionUnanswered()
    ensures AnswerQuestionAsWritten(Db([], [], []), Caller("s", Student), 0, "an answer").response.Unhandled?
  {
  }

  /**
   * `POST /questions/:id/answer` with the unknown id answered by a 404: a
   * non-student is refused (403), an unknown question is not found (404) and
   * a student not on the owner's roster is refused (403), all leaving the
   * store as it was. Otherwise exactly one answer by the caller is appended
   * to that question and nothing else changes. Every request is answered.
   */
  function AnswerQuestion(db: Db, caller: Caller, id: QuestionId, text: string): (h: Handled<Db, Question>)
    ensures !h.response.Unhandled?
    ensures !h.response.Ok? ==> h.state == db
    ensures caller.role != Student ==> h.response == Rejected(Forbidden, UnauthorizedMessage)
    ensures caller.role == Student && id >= |db.questions| ==> h.response == Rejected(NotFound, QuestionNotFound)
    ensures caller.role == Student && id < |db.questions| && !OnRosterOf(db.rosters, db.questions[id].teacherId, caller.id)
            ==> h.response == Rejected(Forbidden, NotAuthorizedToAnswer)
    ensures h.response.Ok? <==>
            caller.role == Student && id < |db.questions| && OnRosterOf(db.rosters, db.questions[id].teacherId, caller.id)
    ensures h.response.Ok? ==>
            && |h.state.questions| == |db.questions|
            && h.state.users == db.users && h.state.rosters == db.rosters
            && (forall j :: 0 <= j < |db.questions| && j != id ==> h.state.questions[j] == db.questions[j])
            && h.state.questions[id].answers == db.questions[id].answers + [QuestionAnswer(caller.id, text)]
            && h.state.questions[id].(answers := db.questions[id].answers) == db.questions[id]
  {
    if caller.role == Student && id >= |db.questions| then Handled(db, Rejected(NotFound, QuestionNotFound))
    else AnswerQuestionAsWritten(db, caller, id, text)
  }

  /** The two handlers differ only on an unknown question id. */
  lemma AnswerQuestionAgreesOnKnownIds(db: Db, caller: Caller, id: QuestionId, text: string)
    requires caller.role != Student || id < |db.questions|
    ensures AnswerQuestion(db, caller, id, text) == AnswerQuestionAsWritten(db, caller, id, text)
  {
  }
}

=== FILE: test_controller.dfy ===
/**
 * The test controller: creating a test, admitting a submission and assigning
 * a student. The test collection is a map from id to document; each handler
 * returns the collection after the request together with its reply.
 */
module TestController {
  import opened Wrappers
  import opened Users
  import opened Http
  import opened TestModel
  import opened Plagiarism
  import Seqs

  type Tests = map<TestId, Test>

  /** `req.body.questions`, as far as the validation can tell. */
  datatype QuestionsField = Absent | NotAnArray | Items(prompts: seq<Prompt>)

  const TitleAndQuestionRequired := "Title and at least one question are required"
  const NotAuthorizedToSubmit := "Not authorized to submit"
  const AlreadySubmitted := "You have already submitted this test"
  const TestNotFoundOrUnauthorized := "Test not found or unauthorized"
  const StudentNotFound := "Student not found"

  // ---------------------------------------------------------------- createTest

  /**
   * `createTest`: a falsy title or a missing, non-array or empty `questions`
   * is a 400; otherwise a new test owned by the caller with no assigned
   * students.
   */
  function CreateTest(caller: UserId, title: Option<string>, questions: QuestionsField): (r: Response<Test>)
    ensures r.Ok? <==> title.Some? && title.value != [] && questions.Items? && |questions.prompts| > 0
    ensures !r.Ok? ==> r == Rejected(BadRequest, TitleAndQuestionRequired)
    ensures r.Ok? ==> r.value.teacherId == caller && r.value.assignedStudents == [] && r.value.submissions == []
    ensures r.Ok? ==> r.value.title == title.value && r.value.questions == questions.prompts
    ensures r.Ok? ==> NewTest(title, Some(caller), questions.prompts, []) == Some(r.value)
  {
    if title.None? || title.value == [] || !questions.Items? || |questions.prompts| == 0 then
      Rejected(BadRequest, TitleAndQuestionRequired)
    else
      Ok(Test(title.value, caller, questions.prompts, [], []))
  }

  // ---------------------------------------------------------------- submitTest

  /** `req.body` of a submission; either field may be missing. */
  datatype SubmitBody = SubmitBody(answers: Option<seq<Answer>>, wasPasted: Option<bool>)

  /** A submission is flagged when at least one of its answers is. */
  function AnyPlagiarised(answers: seq<Answer>, sim: Similarity): (flag: bool)
    ensures flag <==> exists k :: 0 <= k < |answers| && CheckPlagiarism(answers[k].text, sim)
  {
    Seqs.Any(answers, (a: Answer) => CheckPlagiarism(a.text, sim))
  }

  /** The student is on the test's assigned list. */
  predicate IsAssigned(t: Test, id: UserId) {
    id in t.assignedStudents
  }

  /**
   * `submitTest`, taken as one atomic step. A missing test and an unassigned
   * student are both refused as not authorized, a second attempt is refused
   * as already submitted, and a body without `answers` fails inside the `try`
   * (500). Otherwise one submission is appended at the end.
   */
  function SubmitTest(tests: Tests, id: TestId, student: UserId, body: SubmitBody, now: Timestamp, sim: Similarity)
    : (h: Handled<Tests, Test>)
    ensures !h.response.Ok? ==> h.state == tests
    ensures id !in tests || !IsAssigned(tests[id], student) ==> h.response == Rejected(Forbidden, NotAuthorizedToSubmit)
    ensures id in tests && IsAssigned(tests[id], student) && HasSubmitted(tests[id], student)
            ==> h.response == Rejected(Forbidden, AlreadySubmitted)
    ensures h.response.Ok? <==>
            id in tests && IsAssigned(tests[id], student) && !HasSubmitted(tests[id], student) && body.answers.Some?
    ensures h.response.Ok? ==>
            var before := tests[id];
            var after := h.response.value;
            && h.state == tests[id := after]
            && after.(submissions := before.submissions) == before
            && |after.submissions| == |before.submissions| + 1
            && after.submissions[..|before.submissions|] == before.submissions
            && var s := after.submissions[|before.submissions|];
            && s.studentId == student
            && s.answers == body.answers.value
            && s.submittedAt == now
            && s.wasPasted == body.wasPasted.GetOr(false)
            && (s.plagiarismFlag <==> exists k :: 0 <= k < |s.answers| && CheckPlagiarism(s.answers[k].text, sim))
  {
    if id !in tests || !IsAssigned(tests[id], student) then
      Handled(tests, Rejected(Forbidden, NotAuthorizedToSubmit))
    else if HasSubmitted(tests[id], student) then
      Handled(tests, Rejected(Forbidden, AlreadySubmitted))
    else if body.answers.None? then
      Handled(tests, Rejected(ServerError, ServerErrorMessage))
    else
      var t := tests[id];
      var flag := AnyPlagiarised(body.answers.value, sim);
      var s := NewSubmission(student, body.answers.value, None, body.wasPasted, Some(flag), now);
      var t' := t.(submissions := t.submissions + [s]);
      Handled(tests[id := t'], Ok(t'))
  }

  /** The submission an admitted attempt appends, field by field. */
  lemma AdmittedSubmission(tests: Tests, id: TestId, student: UserId, body: SubmitBody, now: Timestamp, sim: Similarity)
    requires id in tests && IsAssigned(tests[id], student) && !HasSubmitted(tests[id], student) && body.answers.Some?
    ensures var h := SubmitTest(tests, id, student, body, now, sim);
            && h.response.Ok?
            && h.response.value.submissions == tests[id].submissions + [
                 Submission(student, body.answers.value, now, body.wasPasted.GetOr(false), AnyPlagiarised(body.answers.value, sim))]
  {
    var t := tests[id];
    var s := NewSubmission(student, body.answers.value, None, body.wasPasted, Some(AnyPlagiarised(body.answers.value, sim)), now);
    var t' := t.(submissions := t.submissions + [s]);
    assert SubmitTest(tests, id, student, body, now, sim) == Handled(tests[id := t'], Ok(t'));
  }

  /** The single-attempt invariant holds for every stored test. */
  predicate AllSingleAttempt(tests: Tests) {
    forall id :: id in tests ==> SingleAttempt(tests[id])
  }

  /** Appending a submission of a student who has none keeps the submitters unique. */
  lemma AppendKeepsSingleAttempt(t: Test, s: Submission)
    requires SingleAttempt(t) && !HasSubmitted(t, s.studentId)
    ensures SingleAttempt(t.(submissions := t.submissions + [s]))
  {
    var before := t.submissions;
    var after := before + [s];
    forall i, j | 0 <= i < j < |after|
      ensures after[i].studentId != after[j].studentId
    {
      assert after[i] == before[i];
      if j < |before| {
        assert after[j] == before[j];
      }
    }
  }

  /** An admitted submission keeps every test's submitters unique. */
  lemma SubmitPreservesSingleAttempt(
    tests: Tests, id: TestId, student: UserId, body: SubmitBody, now: Timestamp, sim: Similarity)
    requires AllSingleAttempt(tests)
    ensures AllSingleAttempt(SubmitTest(tests, id, student, body, now, sim).state)
  {
    var h := SubmitTest(tests, id, student, body, now, sim);
    if h.response.Ok? {
      var t := tests[id];
      var s := h.response.value.submissions[|t.submissions|];
      assert h.response.value == t.(submissions := t.submissions + [s]);
      AppendKeepsSingleAttempt(t, s);
    }
  }

  /** Once a student's submission is admitted, every later attempt of theirs is refused as already submitted. */
  lemma SecondSubmissionRefused(
    tests: Tests, id: TestId, student: UserId, body: SubmitBody, body2: SubmitBody,
    now: Timestamp, later: Timestamp, sim: Similarity)
    requires SubmitTest(tests, id, student, body, now, sim).response.Ok?
    ensures SubmitTest(SubmitTest(tests, id, student, body, now, sim).state, id, student, body2, later, sim).response
            == Rejected(Forbidden, AlreadySubmitted)
  {
    var h := SubmitTest(tests, id, student, body, now, sim);
    var t := h.state[id];
    assert t.submissions[|t.submissions| - 1].studentId == student;
  }

  /** One submission attempt: who, with which body, at what time. */
  datatype Attempt = Attempt(id: TestId, student: UserId, body: SubmitBody, now: Timestamp)

  /** The replies to a series of attempts, each applied atomically to the state the previous one left. */
  function SubmitAll(tests: Tests, attempts: seq<Attempt>, sim: Similarity): (replies: seq<Response<Test>>)
    ensures |replies| == |attempts|
    decreases |attempts|
  {
    if attempts == [] then []
    else
      var a := attempts[0];
      var h := SubmitTest(tests, a.id, a.student, a.body, a.now, sim);
      [h.response] + SubmitAll(h.state, attempts[1..], sim)
  }

  /** The collection after a series of attempts. */
  function AfterAll(tests: Tests, attempts: seq<Attempt>, sim: Similarity): Tests
    decreases |attempts|
  {
    if attempts == [] then tests
    else
      var a := attempts[0];
      AfterAll(SubmitTest(tests, a.id, a.student, a.body, a.now, sim).state, attempts[1..], sim)
  }

  /** Whatever the attempts, from whichever students, the single-attempt invariant survives them all. */
  lemma {:induction false} SingleAttemptAlways(tests: Tests, attempts: seq<Attempt>, sim: Similarity)
    requires AllSingleAttempt(tests)
    ensures AllSingleAttempt(AfterAll(tests, attempts, sim))
    decreases |attempts|
  {
    if attempts != [] {
      var a := attempts[0];
      SubmitPreservesSingleAttempt(tests, a.id, a.student, a.body, a.now, sim);
      SingleAttemptAlways(SubmitTest(tests, a.id, a.student, a.body, a.now, sim).state, attempts[1..], sim);
    }
  }

  /**
   * Repeated attempts by one student on one test: at most one is admitted,
   * and every attempt after the admitted one is refused as already submitted.
   */
  lemma {:induction false} AtMostOneAdmitted(tests: Tests, attempts: seq<Attempt>, sim: Similarity, id: TestId, student: UserId)
    requires forall k :: 0 <= k < |attempts| ==> attempts[k].id == id && attempts[k].student == student
    ensures var replies := SubmitAll(tests, attempts, sim);
            forall i, j :: 0 <= i < j < |replies| && replies[i].Ok? ==> replies[j] == Rejected(Forbidden, AlreadySubmitted)
    decreases |attempts|
  {
    if attempts != [] {
      var a := attempts[0];
      var h := SubmitTest(tests, id, student, a.body, a.now, sim);
      var rest := attempts[1..];
      var replies := SubmitAll(tests, attempts, sim);
      assert replies == [h.response] + SubmitAll(h.state, rest, sim);
      var tail := SubmitAll(h.state, rest, sim);
      AtMostOneAdmitted(h.state, rest, sim, id, student);
      forall i, j | 0 <= i < j < |replies| && replies[i].Ok?
        ensures replies[j] == Rejected(Forbidden, AlreadySubmitted)
      {
        assert replies[j] == tail[j - 1];
        if i == 0 {
          var t := h.state[id];
          assert t.submissions[|t.submissions| - 1].studentId == student;
          AlreadySubmittedStays(h.state, rest, sim, id, student);
        } else {
          assert replies[i] == tail[i - 1];
        }
      }
    }
  }

  /** After a student has submitted, all further attempts of theirs on that test are refused and store nothing. */
  lemma {:induction false} AlreadySubmittedStays(tests: Tests, attempts: seq<Attempt>, sim: Similarity, id: TestId, student: UserId)
    requires id in tests && IsAssigned(tests[id], student) && HasSubmitted(tests[id], student)
    requires forall k :: 0 <= k < |attempts| ==> attempts[k].id == id && attempts[k].student == student
    ensures forall j :: 0 <= j < |attempts| ==> SubmitAll(tests, attempts, sim)[j] == Rejected(Forbidden, AlreadySubmitted)
    ensures AfterAll(tests, attempts, sim) == tests
    decreases |attempts|
  {
    if attempts != [] {
      var a := attempts[0];
      assert SubmitTest(tests, id, student, a.body, a.now, sim).state == tests;
      AlreadySubmittedStays(tests, attempts[1..], sim, id, student);
    }
  }

  // ---------------------------------------------------------------- assignTest

  /**
   * `assignTest`: a non-teacher is refused (403); a missing test or one the
   * caller does not own is a 404, and so is an e-mail that names no student.
   * Otherwise the student is added to `assignedStudents` unless already there.
   */
  function AssignTest(tests: Tests, users: seq<User>, caller: Caller, id: TestId, email: string)
    : (h: Handled<Tests, Test>)
    ensures !h.response.Ok? ==> h.state == tests
    ensures caller.role != Teacher ==> h.response == Rejected(Forbidden, UnauthorizedMessage)
    ensures caller.role == Teacher && (id !in tests || tests[id].teacherId != caller.id)
            ==> h.response == Rejected(NotFound, TestNotFoundOrUnauthorized)
    ensures caller.role == Teacher && id in tests && tests[id].teacherId == caller.id && FindStudent(users, email).None?
            ==> h.response == Rejected(NotFound, StudentNotFound)
    ensures h.response.Ok? <==>
            caller.role == Teacher && id in tests && tests[id].teacherId == caller.id && FindStudent(users, email).Some?
    ensures h.response.Ok? ==>
            var before := tests[id];
            var after := h.response.value;
            var s := FindStudent(users, email).value.id;
            && h.state == tests[id := after]
            && after.(assignedStudents := before.assignedStudents) == before
            && IsAssigned(after, s)
            && (forall x :: x in after.assignedStudents <==> x in before.assignedStudents || x == s)
            && (IsAssigned(before, s) ==> after == before)
            && (Seqs.NoDuplicates(before.assignedStudents) ==> Seqs.NoDuplicates(after.assignedStudents))
  {
    if caller.role != Teacher then
      Handled(tests, Rejected(Forbidden, UnauthorizedMessage))
    else if id !in tests || tests[id].teacherId != caller.id then
      Handled(tests, Rejected(NotFound, TestNotFoundOrUnauthorized))
    else
      match FindStudent(users, email)
      case None => Handled(tests, Rejected(NotFound, StudentNotFound))
      case Some(student) =>
        var t := tests[id];
        var t' := t.(assignedStudents := Seqs.InsertOnce(t.assignedStudents, student.id));
        Handled(tests[id := t'], Ok(t'))
  }

  /** Assigning the same student twice leaves the collection as assigning once. */
  lemma AssignIdempotent(tests: Tests, users: seq<User>, caller: Caller, id: TestId, email: string)
    ensures var once := AssignTest(tests, users, caller, id, email);
            AssignTest(once.state, users, caller, id, email) == once
  {
    var once := AssignTest(tests, users, caller, id, email);
    if once.response.Ok? {
      var t := once.state[id];
      assert once.state[id := t] == once.state;
    }
  }
}

=== FILE: test_form.dfy ===
/** The teacher's new-test form: a title and a growing list of question texts. */
module TestForm {
  import opened Wrappers
  import opened JsStrings
  import opened TestModel
  import Seqs

  const FillAllFields := "Please fill in all fields"
  const CreateFailed := "Failed to create test"

  datatype Form = Form(title: string, questions: seq<string>, error: Option<string>)

  /** The form starts with an empty title and exactly one empty question. */
  const Initial := Form("", [""], None)

  /** `addQuestion`: one more empty question at the end. */
  function AddQuestion(f: Form): (r: Form)
    ensures |r.questions| == |f.questions| + 1
    ensures r.questions[..|f.questions|] == f.questions && r.questions[|f.questions|] == ""
    ensures r.title == f.title && r.error == f.error
  {
    f.(questions := f.questions + [""])
  }

  /** `updateQuestion(i, value)` on a copy of the list. */
  function UpdateQuestion(f: Form, i: nat, value: string): (r: Form)
    requires i < |f.questions|
    ensures |r.questions| == |f.questions|
    ensures r.questions[i] == value
    ensures forall j :: 0 <= j < |f.questions| && j != i ==> r.questions[j] == f.questions[j]
    ensures r.title == f.title && r.error == f.error
  {
    f.(questions := f.questions[i := value])
  }

  /** The question texts as prompts, in order. */
  function Prompts(questions: seq<string>): (p: seq<Prompt>)
    ensures |p| == |questions|
    ensures forall k :: 0 <= k < |p| ==> p[k].text == questions[k]
  {
    seq(|questions|, k requires 0 <= k < |questions| => Prompt(questions[k]))
  }

  /** The body of `POST /tests`. */
  datatype CreateRequest = CreateRequest(title: string, questions: seq<Prompt>)

  datatype AfterCreate = AfterCreate(form: Form, request: Option<CreateRequest>)

  /**
   * `createTest`: blocked with an error and no request exactly when the
   * title or some question is blank after trimming; otherwise the title and
   * the questions, in order, go out.
   */
  function Create(f: Form): (r: AfterCreate)
    ensures r.request.None? <==> IsBlank(f.title) || exists i :: 0 <= i < |f.questions| && IsBlank(f.questions[i])
    ensures r.request.None? ==> r.form == f.(error := Some(FillAllFields))
    ensures r.request.Some? ==> r.form == f && r.request.value == CreateRequest(f.title, Prompts(f.questions))
  {
    if IsBlank(f.title) || Seqs.Any(f.questions, IsBlank) then AfterCreate(f.(error := Some(FillAllFields)), None)
    else AfterCreate(f, Some(CreateRequest(f.title, Prompts(f.questions))))
  }

  /** The server's reply: accepted, or refused with an optional message. */
  datatype CreateReply = Created | Refused(message: Option<string>)

  /** After success the form is reset to its initial state; otherwise the error is shown. */
  function OnCreateReply(f: Form, reply: CreateReply): (r: Form)
    ensures reply.Created? ==> r.title == "" && r.questions == [""] && r.error.None?
    ensures reply.Refused? ==> r.title == f.title && r.questions == f.questions && r.error.Some?
    ensures reply.Refused? && reply.message.Some? && reply.message.value != "" ==> r.error == reply.message
    ensures reply.Refused? && (reply.message.None? || reply.message.value == "") ==> r.error == Some(CreateFailed)
  {
    match reply
    case Created => Initial
    case Refused(message) =>
      f.(error := Some(if message.Some? && message.value != "" then message.value else CreateFailed))
  }

  datatype Event = SetTitle(title: string) | Add | Edit(index: nat, value: string) | Reply(reply: CreateReply)

  /** Every edit targets a rendered input, so its index is in range. */
  predicate EditsInRange(f: Form, e: Event) {
    e.Edit? ==> e.index < |f.questions|
  }

  function Step(f: Form, e: Event): (r: Form)
    requires EditsInRange(f, e)
    ensures |f.questions| >= 1 ==> |r.questions| >= 1
  {
    match e
    case SetTitle(t) => f.(title := t)
    case Add => AddQuestion(f)
    case Edit(i, value) => UpdateQuestion(f, i, value)
    case Reply(reply) => OnCreateReply(f, reply)
  }

  /**
   * The form after a series of events; an edit whose index is out of range
   * (no such input is rendered) stops the run.
   */
  function Run(f: Form, events: seq<Event>): (r: Form)
    decreases |events|
  {
    if events == [] || !EditsInRange(f, events[0]) then f
    else Run(Step(f, events[0]), events[1..])
  }

  /** Starting from one question and only ever appending, the form never runs out of questions. */
  lemma {:induction false} AlwaysAQuestion(events: seq<Event>)
    ensures |Run(Initial, events).questions| >= 1
  {
    NeverEmpty(Initial, events);
  }

  lemma {:induction false} NeverEmpty(f: Form, events: seq<Event>)
    requires |f.questions| >= 1
    ensures |Run(f, events).questions| >= 1
    decreases |events|
  {
    if events != [] && EditsInRange(f, events[0]) {
      NeverEmpty(Step(f, events[0]), events[1..]);
    }
  }
}

=== FILE: test_model.dfy ===
/** The `Test` document and its embedded submissions. */
module TestModel {
  import opened Wrappers
  import opened Users
  import Seqs

  type TestId = string

  /** Milliseconds since the epoch, as `Date.now()` returns them. */
  type Timestamp = int

  /** An entry of `questions: [{ text: String }]`. */
  datatype Prompt = Prompt(text: string)

  /** An entry of a submission's `answers: [{ questionIndex: Number, text: String }]`. */
  datatype Answer = Answer(questionIndex: int, text: string)

  /** A submission sub-document: exactly these five fields, no other flag. */
  datatype Submission = Submission(
    studentId: UserId,
    answers: seq<Answer>,
    submittedAt: Timestamp,
    wasPasted: bool,
    plagiarismFlag: bool)

  datatype Test = Test(
    title: string,
    teacherId: UserId,
    questions: seq<Prompt>,
    assignedStudents: seq<UserId>,
    submissions: seq<Submission>)

  /**
   * Casting a plain object into a submission sub-document: a field left out
   * takes the schema default, `Date.now` for `submittedAt` and `false` for
   * both flags.
   */
  function NewSubmission(
    studentId: UserId, answers: seq<Answer>, submittedAt: Option<Timestamp>,
    wasPasted: Option<bool>, plagiarismFlag: Option<bool>, now: Timestamp): (s: Submission)
    ensures s.studentId == studentId && s.answers == answers
    ensures submittedAt.None? ==> s.submittedAt == now
    ensures submittedAt.Some? ==> s.submittedAt == submittedAt.value
    ensures wasPasted.None? ==> !s.wasPasted
    ensures wasPasted.Some? ==> s.wasPasted == wasPasted.value
    ensures plagiarismFlag.None? ==> !s.plagiarismFlag
    ensures plagiarismFlag.Some? ==> s.plagiarismFlag == plagiarismFlag.value
  {
    Submission(studentId, answers, submittedAt.GetOr(now), wasPasted.GetOr(false), plagiarismFlag.GetOr(false))
  }

  /**
   * Validating a new `Test` on save: `title` is a required string (mongoose
   * rejects a missing or empty one) and `teacherId` is required; `submissions`
   * starts empty.
   */
  function NewTest(
    title: Option<string>, teacherId: Option<UserId>,
    questions: seq<Prompt>, assignedStudents: seq<UserId>): (r: Option<Test>)
    ensures r.Some? <==> title.Some? && title.value != [] && teacherId.Some?
    ensures r.Some? ==> r.value.title == title.value && r.value.teacherId == teacherId.value
    ensures r.Some? ==> r.value.questions == questions && r.value.assignedStudents == assignedStudents
    ensures r.Some? ==> r.value.submissions == []
  {
    if title.None? || title.value == [] || teacherId.None? then None
    else Some(Test(title.value, teacherId.value, questions, assignedStudents, []))
  }

  /** Some stored submission is by the student. */
  predicate HasSubmitted(t: Test, id: UserId) {
    Seqs.Any(t.submissions, (s: Submission) => s.studentId == id)
  }

  /** The single-attempt invariant: each student appears at most once in `submissions`. */
  predicate SingleAttempt(t: Test) {
    forall i, j :: 0 <= i < j < |t.submissions| ==> t.submissions[i].studentId != t.submissions[j].studentId
  }
}

=== FILE: test_view.dfy ===
/**
 * The student's exam view: one answer per question, edits that keep the
 * answer list's shape, the paste flag, the face-detection status line and
 * the submit button's completeness check and request body.
 */
module TestView {
  import opened Wrappers
  import opened JsStrings
  import opened TestModel
  import opened Proctoring
  import Seqs
  import TestController

  const WaitingStatus := "Waiting for detection..."
  const CameraDeniedStatus := "Camera access denied"
  const DetectErrorStatus := "Error detecting faces"
  const PleaseAnswerAll := "Please answer all questions"
  const FetchFailed := "Failed to fetch test"
  const TestNotFound := "Test not found"
  const SubmitFailed := "Failed to submit test"
  const StudentRoute := "/student"

  /**
   * The view's state. `test` is the loaded test; until it is set the page
   * renders only a loading line, so there are no textareas and no form.
   */
  datatype View = View(
    test: Option<Listed>,
    answers: seq<string>,
    wasPasted: bool,
    status: string,
    alertClass: string,
    error: Option<string>)

  /** An entry of the `GET /tests` reply. */
  datatype Listed = Listed(id: TestId, questions: seq<Prompt>)

  const Initial := View(None, [], false, WaitingStatus, "", None)

  // ---------------------------------------------------------------- loading

  /**
   * The `GET /tests` round trip: a reply that is not ok, the list of the
   * student's tests, or an exception with its own message (the `fetch` was
   * rejected, or the body was not a JSON list).
   */
  datatype FetchReply = NotOk | Fetched(tests: seq<Listed>) | Thrown(message: string)

  /** The first listed test with the given id, if any. */
  function FindListed(tests: seq<Listed>, id: TestId): (r: Option<Listed>)
    ensures r.None? <==> forall k :: 0 <= k < |tests| ==> tests[k].id != id
    ensures r.Some? ==> r.value in tests && r.value.id == id
  {
    if tests == [] then None
    else if tests[0].id == id then Some(tests[0])
    else
      assert forall k :: 1 <= k < |tests| ==> tests[k] == tests[1..][k - 1];
      FindListed(tests[1..], id)
  }

  /** One empty answer per question. */
  function InitialAnswers(questions: seq<Prompt>): (a: seq<string>)
    ensures |a| == |questions|
    ensures forall i :: 0 <= i < |a| ==> a[i] == ""
  {
    seq(|questions|, _ => "")
  }

  /**
   * `fetchTest`: the found test is stored and the answers are set up for it;
   * otherwise only the `error` field is set, and the test stays unset.
   */
  function LoadTest(v: View, id: TestId, reply: FetchReply): (r: View)
    ensures reply.NotOk? ==> r == v.(error := Some(FetchFailed))
    ensures reply.Thrown? ==> r == v.(error := Some(reply.message))
    ensures reply.Fetched? && FindListed(reply.tests, id).None? ==> r == v.(error := Some(TestNotFound))
    ensures reply.Fetched? && FindListed(reply.tests, id).Some? ==>
            var t := FindListed(reply.tests, id).value;
            r == v.(test := Some(t), answers := InitialAnswers(t.questions))
  {
    match reply
    case NotOk => v.(error := Some(FetchFailed))
    case Thrown(message) => v.(error := Some(message))
    case Fetched(tests) =>
      match FindListed(tests, id)
      case None => v.(error := Some(TestNotFound))
      case Some(t) => v.(test := Some(t), answers := InitialAnswers(t.questions))
  }

  // ---------------------------------------------------------------- rendering

  /** What the page shows: the loading line, a load error, or the exam form with its error line. */
  datatype Page = LoadingPage | LoadErrorPage(message: string) | ExamPage(error: Option<string>)

  /** The page as rendered: nothing but the loading line until the test is set. */
  function PageAsWritten(v: View): (p: Page)
    ensures p.LoadingPage? <==> v.test.None?
    ensures v.test.Some? ==> p == ExamPage(v.error)
  {
    if v.test.None? then LoadingPage else ExamPage(v.error)
  }

  /** The page with the load error shown: a view whose test never loaded shows its error, if it has one. */
  function PageShown(v: View): (p: Page)
    ensures v.test.None? && v.error.Some? ==> p == LoadErrorPage(v.error.value)
    ensures v.test.None? && v.error.None? ==> p == LoadingPage
    ensures v.test.Some? ==> p == PageAsWritten(v)
  {
    match v.test
    case Some(_) => ExamPage(v.error)
    case None => if v.error.Some? then LoadErrorPage(v.error.value) else LoadingPage
  }

  /** The load failed: the reply was not ok, an exception was thrown, or the reply did not list the test. */
  predicate LoadFailed(id: TestId, reply: FetchReply) {
    !reply.Fetched? || FindListed(reply.tests, id).None?
  }

  /** The message a failed load sets. */
  function LoadFailure(id: TestId, reply: FetchReply): string {
    match reply
    case NotOk => FetchFailed
    case Thrown(message) => message
    case Fetched(_) => TestNotFound
  }

  // ---------------------------------------------------------------- editing

  /** `updateAnswer(i, value)` on a copy of the list. */
  function UpdateAnswer(answers: seq<string>, i: nat, value: string): (r: seq<string>)
    requires i < |answers|
    ensures |r| == |answers|
    ensures r[i] == value
    ensures forall j :: 0 <= j < |answers| && j != i ==> r[j] == answers[j]
  {
    answers[i := value]
  }

  // ---------------------------------------------------------------- face status

  /** A `/detect-faces` reply. */
  datatype Detection = Detection(message: string, alertType: string, faceCount: Option<int>)

  datatype DetectReply = Received(detection: Detection) | RequestFailed

  /** A browser alert is raised when the reply counts no face or several faces. */
  function RaisesBrowserAlert(faceCount: Option<int>): (alarm: bool)
    ensures faceCount.None? ==> !alarm
    ensures faceCount.Some? && faceCount.value >= 0 ==> (alarm <==> faceCount.value != 1)
  {
    faceCount.Some? && (faceCount.value == 0 || faceCount.value > 1)
  }

  /** The view after a detection reply, and the browser alert it raised, if any. */
  datatype AfterDetection = AfterDetection(view: View, browserAlert: Option<string>)

  /**
   * Handling one detection reply: the status line shows the server's message
   * in the class of its `alertType`, and a count other than one face raises a
   * browser alert; a failed round trip shows an error line and no alert.
   * Nothing but the status line changes, and the next capture was scheduled
   * before the reply came (`Proctoring.CaptureAndSend`).
   */
  function OnDetection(v: View, reply: DetectReply): (r: AfterDetection)
    ensures r.view.answers == v.answers && r.view.wasPasted == v.wasPasted && r.view.error == v.error
    ensures reply.RequestFailed? ==> r.view.status == DetectErrorStatus && r.view.alertClass == DangerClass && r.browserAlert.None?
    ensures reply.Received? ==>
            && r.view.status == reply.detection.message
            && r.view.alertClass == AlertClass(reply.detection.alertType)
            && (r.browserAlert.Some? <==> RaisesBrowserAlert(reply.detection.faceCount))
            && (r.browserAlert.Some? ==> r.browserAlert.value == reply.detection.message)
  {
    match reply
    case RequestFailed => AfterDetection(v.(status := DetectErrorStatus, alertClass := DangerClass), None)
    case Received(d) =>
      var v' := v.(status := d.message, alertClass := AlertClass(d.alertType));
      AfterDetection(v', if RaisesBrowserAlert(d.faceCount) then Some(d.message) else None)
  }

  // ---------------------------------------------------------------- events

  datatype Event =
    | Edit(index: nat, value: string)          // a textarea's `onChange`
    | Paste                                    // a `paste` event on a textarea
    | Detected(reply: DetectReply)
    | SocketAlert(kind: string, message: string)
    | CameraDenied

  /** Every edit targets a rendered textarea, so its index is in range. */
  predicate EditsInRange(events: seq<Event>, n: nat) {
    forall i :: 0 <= i < |events| && events[i].Edit? ==> events[i].index < n
  }

  function Step(v: View, e: Event): (r: View)
    requires e.Edit? ==> e.index < |v.answers|
    ensures |r.answers| == |v.answers|
    ensures e.Edit? ==> r.answers[e.index] == e.value
    ensures forall j :: 0 <= j < |v.answers| && !(e.Edit? && e.index == j) ==> r.answers[j] == v.answers[j]
    ensures r.wasPasted <==> v.wasPasted || (e == Paste && v.test.Some?)
    ensures r.test == v.test && r.error == v.error
  {
    match e
    case Edit(i, value) => v.(answers := UpdateAnswer(v.answers, i, value))
    case Paste => if v.test.Some? then v.(wasPasted := true) else v
    case Detected(reply) => OnDetection(v, reply).view
    case SocketAlert(kind, message) => v.(status := message, alertClass := AlertClass(kind))
    case CameraDenied => v.(status := CameraDeniedStatus, alertClass := DangerClass)
  }

  function Run(v: View, events: seq<Event>): (r: View)
    requires EditsInRange(events, |v.answers|)
    ensures |r.answers| == |v.answers|
    ensures r.test == v.test && r.error == v.error
    decreases |events|
  {
    if events == [] then v else Run(Step(v, events[0]), events[1..])
  }

  /**
   * `wasPasted` is only ever set: after any events it is true exactly when
   * it already was, or the test is loaded and one of the events was a paste.
   */
  lemma {:induction false} PasteFlagMonotone(v: View, events: seq<Event>)
    requires EditsInRange(events, |v.answers|)
    ensures Run(v, events).wasPasted <==> v.wasPasted || (v.test.Some? && exists i :: 0 <= i < |events| && events[i] == Paste)
    decreases |events|
  {
    if events != [] {
      var rest := events[1..];
      PasteFlagMonotone(Step(v, events[0]), rest);
      assert forall i :: 1 <= i < |events| ==> events[i] == rest[i - 1];
    }
  }

  /** An answer no event edits keeps its value. */
  lemma {:induction false} UneditedAnswerKept(v: View, events: seq<Event>, i: nat)
    requires EditsInRange(events, |v.answers|)
    requires i < |v.answers|
    requires forall k :: 0 <= k < |events| && events[k].Edit? ==> events[k].index != i
    ensures Run(v, events).answers[i] == v.answers[i]
    decreases |events|
  {
    if events != [] {
      var rest := events[1..];
      assert forall k :: 0 <= k < |rest| ==> rest[k] == events[k + 1];
      UneditedAnswerKept(Step(v, events[0]), rest, i);
    }
  }

  // ---------------------------------------------------------------- submitting

  /** The submitted answers: each answer text, tagged with its position as the question index. */
  function Payload(answers: seq<string>): (p: seq<Answer>)
    ensures |p| == |answers|
    ensures forall k :: 0 <= k < |p| ==> p[k].questionIndex == k && p[k].text == answers[k]
  {
    seq(|answers|, k requires 0 <= k < |answers| => Answer(k, answers[k]))
  }

  /** The view after pressing submit, and the request it sent, if any. */
  datatype AfterSubmit = AfterSubmit(view: View, request: Option<TestController.SubmitBody>)

  /**
   * `submitTest`: without a loaded test there is no form, so nothing
   * happens. Otherwise it is blocked with an error and no request exactly
   * when some answer is blank after trimming; if not, the answers go out with
   * their positions as question indices, together with the paste flag.
   */
  function Submit(v: View): (r: AfterSubmit)
    ensures v.test.None? ==> r == AfterSubmit(v, None)
    ensures r.request.None? <==> v.test.None? || exists i :: 0 <= i < |v.answers| && IsBlank(v.answers[i])
    ensures v.test.Some? && r.request.None? ==> r.view == v.(error := Some(PleaseAnswerAll))
    ensures r.request.Some? ==> r.view == v
    ensures r.request.Some? ==>
            r.request.value == TestController.SubmitBody(Some(Payload(v.answers)), Some(v.wasPasted))
  {
    if v.test.None? then AfterSubmit(v, None)
    else if Seqs.Any(v.answers, IsBlank) then AfterSubmit(v.(error := Some(PleaseAnswerAll)), None)
    else AfterSubmit(v, Some(TestController.SubmitBody(Some(Payload(v.answers)), Some(v.wasPasted))))
  }

  /**
   * Opening the exam view: once the test has loaded, pressing submit is
   * refused with "Please answer all questions", and sends nothing, for as
   * long as some question's answer has never been edited.
   */
  lemma LoadedTestNeedsEveryAnswer(id: TestId, reply: FetchReply, events: seq<Event>, i: nat)
    requires reply.Fetched? && FindListed(reply.tests, id).Some?
    requires i < |FindListed(reply.tests, id).value.questions|
    requires EditsInRange(events, |FindListed(reply.tests, id).value.questions|)
    requires forall k :: 0 <= k < |events| && events[k].Edit? ==> events[k].index != i
    ensures var v := Run(LoadTest(Initial, id, reply), events);
            Submit(v).request.None? && Submit(v).view.error == Some(PleaseAnswerAll)
  {
    var loaded := LoadTest(Initial, id, reply);
    UneditedAnswerKept(loaded, events, i);
    assert IsBlank(Run(loaded, events).answers[i]);
  }

  /**
   * As written, a failed load is never shown: the error is set, but the
   * page stays on the loading line through any later events.
   */
  lemma FailedLoadHidden(id: TestId, reply: FetchReply, events: seq<Event>)
    requires LoadFailed(id, reply)
    requires EditsInRange(events, 0)
    ensures var v := Run(LoadTest(Initial, id, reply), events);
            v.error == Some(LoadFailure(id, reply)) && PageAsWritten(v) == LoadingPage
  {
  }

  /** With the load error shown, a failed load shows its message, and stays shown through any later events. */
  lemma FailedLoadShown(id: TestId, reply: FetchReply, events: seq<Event>)
    requires LoadFailed(id, reply)
    requires EditsInRange(events, 0)
    ensures PageShown(Run(LoadTest(Initial, id, reply), events)) == LoadErrorPage(LoadFailure(id, reply))
  {
  }

  /** A successful load renders the exam form under both definitions, so the correction changes nothing else. */
  lemma LoadedPageAgrees(id: TestId, reply: FetchReply, events: seq<Event>)
    requires !LoadFailed(id, reply)
    requires EditsInRange(events, |FindListed(reply.tests, id).value.questions|)
    ensures var v := Run(LoadTest(Initial, id, reply), events);
            PageShown(v) == PageAsWritten(v) == ExamPage(None)
  {
  }

  /** The server's reply to the submission: accepted, or refused with an optional message. */
  datatype SubmitReply = Accepted | Refused(message: Option<string>)

  /** On acceptance the camera stops and the view goes back to `/student`; otherwise the error is shown. */
  datatype AfterReply = AfterReply(view: View, navigateTo: Option<string>)

  function OnSubmitReply(v: View, reply: SubmitReply): (r: AfterReply)
    ensures reply.Accepted? ==> r == AfterReply(v, Some(StudentRoute))
    ensures reply.Refused? ==> r.navigateTo.None? && r.view.answers == v.answers
    ensures reply.Refused? && reply.message.Some? && reply.message.value != "" ==> r.view.error == reply.message
    ensures reply.Refused? && (reply.message.None? || reply.message.value == "") ==> r.view.error == Some(SubmitFailed)
  {
    match reply
    case Accepted => AfterReply(v, Some(StudentRoute))
    case Refused(message) =>
      var text := if message.Some? && message.value != "" then message.value else SubmitFailed;
      AfterReply(v.(error := Some(text)), None)
  }
}

=== FILE: users.dfy ===
/** Users and the authenticated caller, as the handlers read them. */
module Users {
  import opened Wrappers

  type UserId = string

  /** The `role` enum of the user schema. */
  datatype Role = Teacher | Student

  datatype User = User(id: UserId, email: string, role: Role)

  /** The decoded token the `auth` middleware leaves in `req.user`. */
  datatype Caller = Caller(id: UserId, role: Role)

  /** The first user with this e-mail whose role is student, if any. */
  function FindStudent(users: seq<User>, email: string): (r: Option<User>)
    ensures r.None? <==> forall i :: 0 <= i < |users| ==> !(users[i].email == email && users[i].role == Student)
    ensures r.Some? ==> r.value in users && r.value.email == email && r.value.role == Student
  {
    if users == [] then None
    else if users[0].email == email && users[0].role == Student then Some(users[0])
    else
      assert forall i :: 1 <= i < |users| ==> users[i] == users[1..][i - 1];
      FindStudent(users[1..], email)
  }
}

=== FILE: wrappers.dfy ===
/** Optional values: a JavaScript value that may be `undefined`/`null`. */
module Wrappers {

  datatype Option<+T> = None | Some(value: T) {

    /** The value, or `default` when absent (a schema default, `x || d`). */
    function GetOr(default: T): T {
      match this
      case Some(v) => v
      case None => default
    }
  }
}
